=== FILE: README.md ===
# canister, modelled in Dafny

canister records machine-learning experiments in a TinyDB JSON store. An
experiment document holds a list of models. Each model holds a list of
sessions, and each session holds its parameters, its metadata and the
results or epochs reported during the run. Every write goes through one
path-update engine, `update_in`. A path step is either a dict key or a
list predicate, and a list predicate selects the last element that
matches. The repository also ships a small character-window corpus reader
for training data and two document helpers used by its web front end.

The Dafny modules follow the program:

- `Documents` (documents.dfy) defines the JSON documents, the exceptions
  the code raises, Python truthiness and `dict.get`.
- `Wrappers` (wrappers.dfy) defines the `Option` and `Result` types.
- `Hashing` (hashing.dfy) models `make_hash`'s `freeze`, plus `dict(pairs)`.
- `Paths` (paths.dfy) models `update_in` and the read a path denotes.
- `Mutators` (mutators.dfy) models `merge`, `append`, `extend_in`,
  `assign_in`, `extend` and `remove`.
- `Sessions` (sessions.dfy) models `Experiment.Model`: its constructor, the
  uniqueness check, the `session` context manager, `add_result`,
  `add_epoch` and `add_meta`.
- `Corpus` (corpus.dfy) models `pad`, the `Corpus` constructor, the
  context windows of `_encode_line`, `generate` and `generate_batches`.
- `Services` (services.dfy) models `lookup` and `transform_layers`.

The source mutates documents in place. The model instead computes the new
document, and every exception becomes a `Failure` carrying an `Error`.
Store calls of the form `db.update(op, cond)` become pure updates of the
one experiment document. The update runs only when the model condition
holds. Session metadata (git commit, user, platform, clock) and the epoch
timestamp are values the caller passes in.

Where the docstrings and the code disagree, the model follows the code:

- The `merge` docstring says nested values are "overwritten by d1". The
  code, `dict(d1, **d2)`, lets `d2` win, and so does `Mutators.Merge`.
- The `session` docstring describes a context that ends the session. The
  generator has no `try`/`finally`, so when the body raises the session
  marker stays set (`Sessions.RaisingBodyKeepsMarker`).
- The session marker is tested with `not self._session_params`. A session
  entered with falsy params such as `{}` therefore counts as no session
  (`Sessions.EmptyParamsSessionRefusesEpochs`).

## Model

| member | source | states |
|---|---|---|
| Hashing.Freeze | experiment.py:84-89 | a scalar freezes to itself, a list to a tuple of the same length, and a dict to a set of pairs |
| Hashing.FreezeInjective | experiment.py:72-90 | two documents with the same frozen form are equal, so freezing loses nothing |
| Hashing.SameFrozenIffEqual | experiment.py:72-90 | two documents have the same hash input exactly when they are equal |
| Hashing.KeyOrderIrrelevant | experiment.py:79-82 | a dict built from the same distinct entries in any order freezes to the same form |
| Hashing.ListOrderMatters | experiment.py:87-88 | swapping two different elements at any two positions of a list changes its frozen form |
| Hashing.DictOf | experiment.py:86 | `dict(pairs)` has exactly the keys that occur in the pairs |
| Hashing.DictOfHasEveryPair | experiment.py:86 | with distinct keys, every pair survives in the built dict |
| Hashing.DictOfLastWins | experiment.py:102 | in `dict(pairs)` a key takes the value of its last pair |
| Paths.Test | experiment.py:228-237 | `e[field]` raises exactly on a non-dict or a dict without the field, and otherwise the verdict is `e[field] == value`; `field in e` tests the keys of a dict, the substrings of a string and the elements of a list, and raises on any other scalar |
| Paths.WhereFindsLastEqual | experiment.py:228-237 | over records that all carry the field, the scan with `model_pred` or `params_pred` never raises, finds nothing exactly when no record holds the value, and otherwise finds the last record that does |
| Paths.FindLast | experiment.py:148-151 | the reverse scan returns the last matching index, or reports that nothing matched; a raising test ends the scan with that error, and everything after it tested false |
| Paths.FindLastFindsLastMatch | experiment.py:148-151 | when the last match is at `i`, the scan returns `i` |
| Paths.UpdateIn | experiment.py:145-164 | a successful update needs a non-empty path; it keeps the other keys of a dict and the length of a list |
| Paths.UpdateThenRead | experiment.py:105-164 | reading after an update gives what `f` made of the old value (`f` receives `None` when the key was absent); when a predicate matched nothing, the document is unchanged |
| Paths.UpdateSucceedsWhereReadDoes | experiment.py:145-164 | when the read succeeds and `f` accepts the value found, the update succeeds too |
| Paths.NoMatchLeavesDocument | experiment.py:135-138 | a predicate that matches no element leaves the whole document unchanged, for every `f` |
| Paths.ReadEmptyNeverNoMatch | experiment.py:162-164 | below a freshly created `{}`, no read ends at an unmatched predicate |
| Paths.ReadConcat | experiment.py:155-164 | reading `p + q` continues from the value that `p` leads to |
| Paths.LastKeySetsValue | experiment.py:153 | a final key stores `f(d.get(key))` and fails exactly when `f` fails |
| Paths.MissingKeyCreatesMapping | experiment.py:162-164 | a missing intermediate key is created as `{}`, and the rest of the path is applied inside it |
| Paths.LastPredicateReplacesLastMatch | experiment.py:140-151 | a final predicate replaces only the last match, or changes nothing when no element matches |
| Paths.InnerPredicateDescendsOnce | experiment.py:155-160 | an inner predicate descends into the last match only, then stops |
| Paths.StableTail | experiment.py:159 | a path on which descending never changes a predicate's verdict keeps that property for its tail |
| Mutators.Merge | experiment.py:93-102 | the result has the union of the keys; `d2` wins on shared keys and `d1` keeps the rest |
| Mutators.AppendOrInit | experiment.py:185 | `(l or []) + [item]` succeeds exactly for a falsy value or a list, and gives the old items followed by the item |
| Mutators.Pairs | experiment.py:102 | the elements handed to `dict(...)` unpack into pairs in order; it fails exactly when some element cannot be unpacked, and then with the first such element's error |
| Mutators.AsDict | experiment.py:194 | `dict(d or {})` is `{}` for a falsy value and the dict itself for a dict; for a list it succeeds exactly when every element is a key/value pair, and its keys are exactly the pairs' keys; any other value raises |
| Mutators.AsDictLastPairWins | experiment.py:102 | for a list of pairs, each key holds the value of its last pair |
| Mutators.MergeOrInit | experiment.py:194 | `merge(d or {}, item)` succeeds exactly when `dict(d or {})` does; a falsy value gives the item itself, and a dict gives that dict with the item's keys winning |
| Mutators.ExtendIn | experiment.py:180-186 | `extend_in` raises only where the path cannot be followed or holds a truthy non-list; a predicate that matches nothing leaves the document alone; only the top-level key the path starts with can change |
| Mutators.AssignIn | experiment.py:189-195 | `assign_in` raises only where the path cannot be followed or holds a value `dict` rejects; a predicate that matches nothing leaves the document alone; only the top-level key the path starts with can change |
| Mutators.ExtendInAppendsAtPath | experiment.py:180-186 | after `extend_in`, the list at the path is the old list followed by the item |
| Mutators.AssignInMergesAtPath | experiment.py:189-195 | after `assign_in`, the dict at the path is `dict(old or {})` merged with the patch, the patch's keys winning |
| Mutators.Append | experiment.py:171-177 | `append` fails exactly on a non-list field; otherwise the field holds the old items plus the item, and every other field is unchanged |
| Mutators.Extend | experiment.py:198-208 | it fails exactly when the item, or an element of the list, is unhashable; a list already holding the item is left unchanged, and otherwise the item is appended to it; an absent field becomes `[item]`; a non-list value is left alone |
| Mutators.ExtendIdempotent | experiment.py:198-208 | adding the same tag twice is the same as adding it once |
| Mutators.Without | experiment.py:219 | the filter keeps exactly the elements different from the item, each with its multiplicity |
| Mutators.WithoutDistributes | experiment.py:219 | filtering keeps order: filtering a concatenation concatenates the filtered parts |
| Mutators.WithoutNoOp | experiment.py:219 | filtering out an absent item changes nothing |
| Mutators.Remove | experiment.py:211-220 | a list field becomes the filtered list: every element equal to the item is dropped, and the others keep their order and multiplicity; an absent field or a non-list value is left alone; other fields are unchanged |
| Mutators.RemoveIdempotent | experiment.py:211-220 | removing twice is the same as removing once |
| Sessions.UpdateWhere | experiment.py:358-359 | when the model condition does not hold, a conditioned update leaves the document unchanged |
| Sessions.HasModel | experiment.py:358-359 | when the handle's condition holds, the scan with `model_pred` over `models` cannot end without a match |
| Sessions.Write | experiment.py:383 | a write never changes the handle, and a raising write leaves the world unchanged |
| Sessions.NewModel | experiment.py:353-363 | an existing model is left alone; otherwise `{modelId, modelConfig}` is appended to `models` (a falsy `models` starts a new list) and every other key is kept; it fails exactly when `models` cannot be extended |
| Sessions.NewModelWellFormed | experiment.py:360-363 | starting from models that each carry another id, the constructor succeeds and leaves the new model, with no sessions, at the end of a well-formed list |
| Sessions.FirstModel | experiment.py:374 | `next(...)` finds the first truthy model with the id; it raises StopIteration exactly when every model is skipped, and otherwise raises only on a model it cannot subscript |
| Sessions.Elements | experiment.py:374-375 | a list walks as its elements; a string or dict walks only as falsy `""` elements when it does not raise; a number, boolean or `None` is not iterable |
| Sessions.FirstModelFinds | experiment.py:374 | when the first non-skipped model sits at `i`, the search returns `i` |
| Sessions.ScanSessions | experiment.py:375-377 | the loop passes exactly when every session has different params; over readable sessions, the only error it can raise is ExistingModelParams |
| Sessions.CheckParams | experiment.py:372-377 | `_check_params` gets past `next(...)` only when the model exists, so passing or rejecting the params both imply the handle's condition; a non-dict document raises |
| Sessions.CheckParamsRejectsDuplicates | experiment.py:372-377 | in a well-formed document, the check raises ExistingModelParams exactly when a session with equal params exists, and otherwise passes |
| Sessions.DuplicateOpenChangesNothing | experiment.py:430-432 | a rejected `session(...)` entry changes neither the document nor the marker |
| Sessions.OpenSession | experiment.py:397-401 | a failed uniqueness check raises before anything changes; a successful entry sets the marker to the params |
| Sessions.OpenSessionAppendsRecord | experiment.py:397-401 | entering a session appends `{params, meta}` to the model's sessions and keeps the document well formed |
| Sessions.MatchedUpdateIsLocal | experiment.py:155-160 | a predicate step whose last match is at `i` updates that element only |
| Sessions.ModelUpdateIsLocal | experiment.py:228-231 | in a well-formed document, an update through `model_pred` changes only the handle's model |
| Sessions.AppendSessionRecord | experiment.py:379-401 | appending a record with params to the model's sessions succeeds, keeps the document well formed, and grows the session list by exactly that record |
| Sessions.SessionFieldUpdateKeepsParams | experiment.py:385-395 | updating `result` or `meta` of the last session with given params keeps every session's params |
| Sessions.SessionFieldWriteWellFormed | experiment.py:385-448 | a write below `params_pred` keeps the document well formed, whether it succeeds or raises |
| Sessions.AddResultKeepsShape | experiment.py:450-456 | `add_result` keeps the document well formed; outside a session, its record joins the model's sessions |
| Sessions.AddEpochKeepsShape | experiment.py:458-464 | `add_epoch` keeps the document well formed |
| Sessions.AddMetaKeepsShape | experiment.py:436-448 | `add_meta` keeps the document well formed |
| Sessions.OneShotThenSessionRejected | experiment.py:372-383 | after a one-shot `add_result(r, P)`, entering `session(P)` with uniqueness on raises and changes nothing |
| Sessions.UncheckedOpenSucceeds | experiment.py:427-432 | with `ensure_unique=False` the duplicate check is skipped, so entering a session in a well-formed document always succeeds |
| Sessions.UncheckedDuplicateOpensAppendTwice | experiment.py:427-432 | opening the same params twice with the check off succeeds both times and appends both `{params, meta}` records in order |
| Sessions.SecondOpenRejected | experiment.py:372-377 | opening the same params again, after the first session ended, raises and changes nothing |
| Sessions.OpenedSessionStartsEmpty | experiment.py:397-401 | right after entry, the session's results are empty |
| Sessions.EndSession | experiment.py:403-404 | ending a session clears the marker and nothing else |
| Sessions.AddResult | experiment.py:450-456 | with neither params nor a session it raises "params missing"; it never changes the handle |
| Sessions.AddResultInSessionAppends | experiment.py:385-395 | inside a session, the result is appended as it is to that session's results, and `params` is ignored |
| Sessions.OneShotResultAppendsRecord | experiment.py:379-383 | outside a session, one `{params, meta, result}` record is appended to the model's sessions |
| Sessions.EpochRecord | experiment.py:461-463 | the stored epoch is the caller's dict plus `epoch_num`, plus `timestamp` when asked; its other keys are kept |
| Sessions.AddEpoch | experiment.py:458-464 | outside a session it raises, and on a non-dict result it raises; it never changes the handle |
| Sessions.AddEpochAppends | experiment.py:458-464 | inside a session, the stamped epoch is appended to that session's results |
| Sessions.AddMeta | experiment.py:436-448 | it raises outside a session and on a non-dict argument, and it never changes the handle |
| Sessions.AddMetaMerges | experiment.py:436-448 | inside a session, `d` is merged over the session's meta, with the new keys winning |
| Sessions.AppendToSession | experiment.py:393-395 | appending at the session's result path succeeds and extends the results by one item |
| Sessions.ExecAll | experiment.py:433 | the calls of a session body never change the handle |
| Sessions.Stamped | experiment.py:461 | a run of epoch calls stores one entry per call, each tagged with that call's epoch number |
| Sessions.EpochsAccumulateInOrder | experiment.py:458-464 | N `add_epoch` calls in one session append N entries, in call order, after the existing results |
| Sessions.SessionRecordsEpochs | experiment.py:406-434 | a whole session of epoch calls ends cleanly, clears the marker, and leaves exactly the stamped epochs as results |
| Sessions.RunSession | experiment.py:430-434 | a session that completes clears the marker |
| Sessions.RaisingBodyKeepsMarker | experiment.py:432-434 | when the body raises, the marker stays set to the session's params |
| Sessions.EmptyParamsSessionRefusesEpochs | experiment.py:442-460 | after entering a session with `{}` as params, `add_epoch` still raises "requires session" |
| Sessions.SessionPathsShape | experiment.py:382-447 | the session paths are `models / model_pred / sessions [/ params_pred / leaf]`, and no step below a predicate changes its verdict |
| Sessions.ReadThroughModelHasModel | experiment.py:358-359 | a path through `model_pred` that leads to a value implies the handle's condition |
| Sessions.HasModelReachesSessions | experiment.py:358-382 | under the condition, the read of the sessions list never ends at an unmatched predicate |
| Corpus.Repeat | src/nlp_utils/corpus.py:25 | `k * [x]` has `max(k, 0)` copies of `x` |
| Corpus.Pad | src/nlp_utils/corpus.py:12-29 | an input of length `maxlen` is returned unchanged; a shorter one is padded to `maxlen` on the chosen side, with the input kept intact; an input is never truncated; an unknown direction raises |
| Corpus.NewCorpus | src/nlp_utils/corpus.py:33-45 | the constructor accepts exactly the sides left, right and both |
| Corpus.LeftContext | src/nlp_utils/corpus.py:51-55 | the left context has `context` codes and ends with the (up to `context`) codes before the character, padded on the left |
| Corpus.RightContext | src/nlp_utils/corpus.py:52-58 | the right context has `context` codes and starts with the (up to `context`) codes after the character, padded on the right |
| Corpus.Window | src/nlp_utils/corpus.py:59-64 | the window is the left context, the right context, or both joined (`2 * context` codes) |
| Corpus.EncodeLine | src/nlp_utils/corpus.py:47-64 | one instance per character, in order, labelled with that character's code |
| Corpus.EncodeLineWindows | src/nlp_utils/corpus.py:47-64 | each instance's window is the context of its character |
| Corpus.Instances | src/nlp_utils/corpus.py:87-96 | `generate` over lines yields one instance per character of the lines |
| Corpus.InstancesFollowChars | src/nlp_utils/corpus.py:66-96 | a corpus yields one instance per character of its lines, labelled in order |
| Corpus.DivisibleAtEnds | src/nlp_utils/corpus.py:119 | with `c` kept since the last yield, `n % batch_size == 0` holds exactly when `c` is 0 or `abs(batch_size)` |
| Corpus.Strided | src/nlp_utils/corpus.py:108-127 | batch `j` holds the `take` instances from `j * stride`, and there is one batch per full stride |
| Corpus.StridedUnique | src/nlp_utils/corpus.py:108-127 | the batch sequence is determined by the instances |
| Corpus.YieldAsWritten | src/nlp_utils/corpus.py:119-121 | yielding when a batch is due adds exactly the batch of the instances since the last yield |
| Corpus.Receive | src/nlp_utils/corpus.py:118-125 | one arriving instance keeps the loop's state consistent, and a batch is yielded exactly when `batch_size` instances are waiting |
| Corpus.GenerateBatches | src/nlp_utils/corpus.py:108-127 | as written: it raises only for batch size 0 with input; batch `j` holds instances from `j * (b + 1)`, so the instance after each batch is lost |
| Corpus.GenerateBatchesFixed | src/nlp_utils/corpus.py:108-127 | as intended: batch `j` is instances `[j * b, (j + 1) * b)` |
| Corpus.DroppedInstance | src/nlp_utils/corpus.py:119-125 | with two instances and batch size 1, the code as written yields one batch where two were intended |
| Services.Lookup | app/services.py:14-17 | it raises only on a non-dict; a missing key at any level gives `None`, and so does lookup in `{}` |
| Services.LookupReadsKeyPath | app/services.py:14-17 | `lookup` reads exactly what `update_in` updates along a path of keys |
| Services.LookupAfterUpdate | app/services.py:14-17 | a lookup after `update_in` on a key path gives what `f` made of the value looked up before |
| Services.NamedLayer | app/services.py:34-39 | a layer yields an entry exactly when it is a dict with a string name; the entry's value is the layer without `name` |
| Services.NamedLayers | app/services.py:34-39 | it succeeds exactly when every layer does, and otherwise reports the first failing layer's error |
| Services.LayerMapping | app/services.py:41-43 | for a list, the mapping succeeds exactly when every layer is accepted, and its keys are exactly the layers' names; a string or a dict with no key containing `name` gives `{}`; a number, boolean or `None` is not iterable |
| Services.LayerTableKeys | app/services.py:35-43 | a name is a key of the table exactly when some layer carries that name |
| Services.LayerTableLastWins | app/services.py:35-43 | each name maps to the last layer with that name, stripped of `name`, as `dict()` keeps the last pair |
| Services.LayerTable | app/services.py:35-43 | the names in the table are exactly the layers' names, each mapped to the last layer with that name, stripped of `name` |
| Services.TransformLayers | app/services.py:33-44 | a model without `layers` is returned unchanged; otherwise only `layers` changes, to a dict; for a list, it succeeds exactly when every layer is accepted |
| Services.LayersKeyedByName | app/services.py:41-44 | the result is keyed by layer name and later layers overwrite earlier ones |

## Left out

- `Experiment.__init__`, `new`, `use`, `exists`, `model_exists`, `set_corpus`, `add_tag` and `remove_tag` are left out. They open the TinyDB or SFTP store, generate a uuid, read the clock, or query the store. `new` checks whether a freshly generated id already exists rather than `exp_id`; that is outside this model.
- `GitInfo`, `_result_meta`, `getuser`, `platform` and `datetime.now` are left out because they do I/O. Their values are parameters: `meta` and `now`.
- Python's numeric `hash` is left out because it is process-specific. `make_hash` is compared through its frozen form, and this revision never calls it.
- Numeric equality across types (`1 == 1.0 == True`) is left out. Numbers are reals, and booleans are not numbers.
- Hashing.Freeze: does not model Python's `range` objects in the doctest at experiment.py:75-76, because documents hold only lists.
- Paths.UpdateIn: does not model the changes the source has already made in place when a later step raises. For example, the `{}` created for a missing key stays when the rest of the path raises. The model returns the error and the document as it was.
- Exceptions are grouped by cause. The Python class (`AttributeError`, `TypeError`, `KeyError`) is not kept.
- Sessions.Elements: iterating a string or dict of models or sessions does not produce its characters or keys. A non-empty string, or a dict with a truthy key, is modelled as raising at once. Python iterates the characters or keys, steps over the falsy key `""` in `models`, and raises on the first string it subscripts. The outcome is the same, but the model does not compute the intermediate strings.
- Params and results are assumed to be JSON-native: strings as keys, lists and no tuples. TinyDB's default JSON storage (experiment.py:283-285) turns a tuple into a list and a non-string key into a string. Then `result["params"] == params` (experiment.py:236, 376) never holds for such params. `_check_params` misses the duplicate, and every `add_result`, `add_epoch` and `add_meta` of that session matches no session and is dropped without an error. The model stores documents exactly as given, so it cannot show this.
- Sessions.EpochRecord: `add_epoch` adds `epoch_num` and `timestamp` to the caller's dict in place (experiment.py:461-463). The model builds a new record and leaves the caller's value unchanged.
- Mutators.AsDict: a list element that is a dict with two keys unpacks in Python into those keys, in insertion order. Here it raises `NotMergeable`, because mappings in this model are unordered. A list element `[k, v]` with a number, boolean or `None` key is valid in Python, but here it is reported as `NonStringName`.
- Only a corpus root given as lines (a generator) is modelled. Reading a file or a directory (`lines_from_file`, `os.listdir`) is I/O. The `**kwargs` forwarded to `indexer.encode` are left out; the encoder is a function parameter.
- Corpus.EncodeLineWindows: the window lemmas assume a non-negative context. With a negative context the model computes what the code computes but states nothing about it.
- Services.NamedLayer: a layer name that is a number, boolean or `None` is a valid Python dict key, but here it is reported as `NonStringName`, because mappings in this model have string keys. Deleting `name` from the caller's layer dicts in place is not modelled.
- `transform`, `dict2html`, `timestamp_to_str`, `handle_project`, `summarize_project`, the Flask server, the JS charts, the callbacks and the config loader are outside the modelled core.

## Findings

| source | as written | input that shows it | evidently intended | confidence | as-written member | corrected member |
|---|---|---|---|---|---|---|
| src/nlp_utils/corpus.py:116-127 | when a batch is due, the arriving instance takes the yield branch and is neither yielded nor kept; after the last instance nothing is yielded, so a full final batch is lost too | batch size 1, instances `[x, y]`: one batch `([x.0], [x.1])` is yielded and `y` never appears | consecutive batches of `batch_size`: batch `j` is instances `[j * b, (j + 1) * b)`, so every instance up to the last full batch lands in exactly one batch | not executed; the counterexample is proved about the model | Corpus.GenerateBatches, Corpus.DroppedInstance | Corpus.GenerateBatchesFixed |

=== FILE: corpus.dfy ===
/** The character-window corpus of src/nlp_utils/corpus.py: padding, the
    context windows `_encode_line` builds around each character, and the
    batching of `generate_batches`. Reading lines from files or directories
    is left out; a corpus root is a sequence of lines. */
module Corpus {
  import opened Wrappers
  import opened Documents

  /** Python's `k * [x]`: `k` copies, none when `k` is not positive. */
  function Repeat<T>(x: T, k: int): (r: seq<T>)
    ensures |r| == if k > 0 then k else 0
    ensures forall i :: 0 <= i < |r| ==> r[i] == x
    decreases if k > 0 then k else 0
  {
    if k <= 0 then [] else [x] + Repeat(x, k - 1)
  }

  /** `pad(items, maxlen, paditem, paddir)` (corpus.py:12-29). */
  function Pad<T>(items: seq<T>, maxlen: int, paditem: T, paddir: string): (r: Outcome<seq<T>>)
    ensures |items| == maxlen ==> r == Success(items)
    ensures r.Failure? <==> |items| != maxlen && paddir != "left" && paddir != "right"
    ensures r.Failure? ==> r.error == UnknownPadDirection(paddir)
    ensures r.Success? && |items| <= maxlen ==> |r.value| == maxlen
    ensures r.Success? && |items| >= maxlen ==> r.value == items
    ensures r.Success? && paddir == "left" ==>
      |items| <= |r.value| && r.value[|r.value| - |items|..] == items &&
      forall i :: 0 <= i < |r.value| - |items| ==> r.value[i] == paditem
    ensures r.Success? && paddir == "right" && |items| != maxlen ==>
      |items| <= |r.value| && r.value[..|items|] == items &&
      forall i :: |items| <= i < |r.value| ==> r.value[i] == paditem
  {
    if |items| == maxlen then Success(items)
    else if paddir == "left" then Success(Repeat(paditem, maxlen - |items|) + items)
    else if paddir == "right" then Success(items + Repeat(paditem, maxlen - |items|))
    else Failure(UnknownPadDirection(paddir))
  }

  /** Where the context of a character comes from. */
  datatype Side = Left | Right | Both

  /** A corpus as `Corpus.__init__` leaves it (the root is left out). */
  datatype Corpus = Corpus(context: int, side: Side)

  function SideName(s: Side): string {
    match s
    case Left => "left"
    case Right => "right"
    case Both => "both"
  }

  /** `Corpus(root, context, side)` (corpus.py:33-45): any side outside
      {left, right, both} is rejected. */
  function NewCorpus(context: int, side: string): (r: Outcome<Corpus>)
    ensures r.Success? <==> side == "left" || side == "right" || side == "both"
    ensures r.Failure? ==> r.error == InvalidSide(side)
    ensures r.Success? ==> r.value.context == context && SideName(r.value.side) == side
  {
    if side == "left" then Success(Corpus(context, Left))
    else if side == "right" then Success(Corpus(context, Right))
    else if side == "both" then Success(Corpus(context, Both))
    else Failure(InvalidSide(side))
  }

  /** The indexer the corpus is given: a code per character and a padding
      code (`indexer.encode`, `indexer.pad_code`). */
  datatype Indexer = Indexer(encode: char -> int, padCode: int)

  /** Python's `s[a:b]` for integer bounds: a negative bound counts from the
      end, bounds are clamped to the sequence, and an empty range is `[]`. */
  function Slice<T>(s: seq<T>, a: int, b: int): seq<T> {
    var lo := if a < 0 then (if a + |s| < 0 then 0 else a + |s|) else (if a > |s| then |s| else a);
    var hi := if b < 0 then (if b + |s| < 0 then 0 else b + |s|) else (if b > |s| then |s| else b);
    if lo < hi then s[lo..hi] else []
  }

  function Max(a: int, b: int): int { if a >= b then a else b }
  function Min(a: int, b: int): int { if a <= b then a else b }

  /** The left context: `context` codes, ending with the up-to-`context`
      codes before the character, padded on the left. */
  predicate IsLeftContext(w: seq<int>, enc: seq<int>, idx: nat, context: nat, padCode: int)
    requires idx < |enc|
  {
    var k := Min(idx, context);
    |w| == context && w[context - k..] == enc[idx - k..idx] &&
    forall i :: 0 <= i < context - k ==> w[i] == padCode
  }

  /** The right context: `context` codes, starting with the up-to-`context`
      codes after the character, padded on the right. */
  predicate IsRightContext(w: seq<int>, enc: seq<int>, idx: nat, context: nat, padCode: int)
    requires idx < |enc|
  {
    var k := Min(context, |enc| - idx - 1);
    |w| == context && w[..k] == enc[idx + 1..idx + 1 + k] &&
    forall i :: k <= i < context ==> w[i] == padCode
  }

  /** The left part of a window (corpus.py:51-52, 55): the codes in
      `[max(0, idx - context), idx)` padded on the left to `context`. */
  function LeftContext(enc: seq<int>, idx: nat, context: int, padCode: int): (w: seq<int>)
    requires idx < |enc|
    ensures context >= 0 ==> IsLeftContext(w, enc, idx, context, padCode)
  {
    var k := Min(idx, context);
    assert context >= 0 ==> Slice(enc, Max(0, idx - context), idx) == enc[idx - k..idx];
    Pad(Slice(enc, Max(0, idx - context), idx), context, padCode, "left").value
  }

  /** The right part of a window (corpus.py:53-54, 56): the codes in
      `[idx + 1, min(len, idx + context + 1))` padded on the right. */
  function RightContext(enc: seq<int>, idx: nat, context: int, padCode: int): (w: seq<int>)
    requires idx < |enc|
    ensures context >= 0 ==> IsRightContext(w, enc, idx, context, padCode)
  {
    var k := Min(context, |enc| - idx - 1);
    assert context >= 0 ==> Slice(enc, idx + 1, Min(|enc|, idx + context + 1)) == enc[idx + 1..idx + 1 + k];
    Pad(Slice(enc, idx + 1, Min(|enc|, idx + context + 1)), context, padCode, "right").value
  }

  /** The context window of the code at `idx` (corpus.py:57-62): for a
      non-negative context, a left context, a right context, or the two
      joined (length `2 * context`). */
  function Window(c: Corpus, enc: seq<int>, idx: nat, padCode: int): (w: seq<int>)
    requires idx < |enc|
    ensures c.context >= 0 && c.side == Left ==> IsLeftContext(w, enc, idx, c.context, padCode)
    ensures c.context >= 0 && c.side == Right ==> IsRightContext(w, enc, idx, c.context, padCode)
    ensures c.context >= 0 && c.side == Both ==>
      |w| == 2 * c.context &&
      IsLeftContext(w[..c.context], enc, idx, c.context, padCode) &&
      IsRightContext(w[c.context..], enc, idx, c.context, padCode)
  {
    var left := LeftContext(enc, idx, c.context, padCode);
    var right := RightContext(enc, idx, c.context, padCode);
    match c.side
    case Left => left
    case Right => right
    case Both =>
      assert c.context >= 0 ==> (left + right)[..c.context] == left && (left + right)[c.context..] == right;
      left + right
  }

  /** `_encode_line(line, indexer)` (corpus.py:47-64): one instance per
      character, in order, labelled with that character's code. */
  function EncodeLine(c: Corpus, line: string, ix: Indexer): (r: seq<(seq<int>, int)>)
    ensures |r| == |line|
    ensures forall i :: 0 <= i < |line| ==> r[i].1 == ix.encode(line[i])
  {
    var enc := Codes(line, ix);
    seq(|enc|, idx requires 0 <= idx < |enc| => (Window(c, enc, idx, ix.padCode), enc[idx]))
  }

  function Codes(line: string, ix: Indexer): (enc: seq<int>)
    ensures |enc| == |line|
  {
    seq(|line|, i requires 0 <= i < |line| => ix.encode(line[i]))
  }

  /** The windows of the instances `_encode_line` yields. */
  lemma EncodeLineWindows(c: Corpus, line: string, ix: Indexer, i: nat)
    requires c.context >= 0 && i < |line|
    ensures c.side == Left ==> IsLeftContext(EncodeLine(c, line, ix)[i].0, Codes(line, ix), i, c.context, ix.padCode)
    ensures c.side == Right ==> IsRightContext(EncodeLine(c, line, ix)[i].0, Codes(line, ix), i, c.context, ix.padCode)
    ensures c.side == Both ==>
      |EncodeLine(c, line, ix)[i].0| == 2 * c.context &&
      IsLeftContext(EncodeLine(c, line, ix)[i].0[..c.context], Codes(line, ix), i, c.context, ix.padCode) &&
      IsRightContext(EncodeLine(c, line, ix)[i].0[c.context..], Codes(line, ix), i, c.context, ix.padCode)
  {
    assert EncodeLine(c, line, ix)[i].0 == Window(c, Codes(line, ix), i, ix.padCode);
  }

  /** The characters of all lines, in order (`chars` over a generator root). */
  function Chars(lines: seq<string>): seq<char>
    decreases |lines|
  {
    if |lines| == 0 then [] else Chars(lines[..|lines| - 1]) + lines[|lines| - 1]
  }

  /** `generate(indexer)` over a generator root: the instances of every
      line, line after line. */
  function Instances(c: Corpus, lines: seq<string>, ix: Indexer): (r: seq<(seq<int>, int)>)
    ensures |r| == |Chars(lines)|
    decreases |lines|
  {
    if |lines| == 0 then []
    else Instances(c, lines[..|lines| - 1], ix) + EncodeLine(c, lines[|lines| - 1], ix)
  }

  /** Every character of the corpus yields exactly one instance, in order,
      labelled with its code. */
  lemma {:induction false} InstancesFollowChars(c: Corpus, lines: seq<string>, ix: Indexer)
    ensures |Instances(c, lines, ix)| == |Chars(lines)|
    ensures forall i :: 0 <= i < |Chars(lines)| ==> Instances(c, lines, ix)[i].1 == ix.encode(Chars(lines)[i])
    decreases |lines|
  {
    if |lines| > 0 {
      InstancesFollowChars(c, lines[..|lines| - 1], ix);
    }
  }

  /** A batch: the contexts and the labels of consecutive instances. */
  type Batch<C, L> = (seq<C>, seq<L>)

  function Unzip<C, L>(ps: seq<(C, L)>): (b: Batch<C, L>)
    ensures |b.0| == |ps| && |b.1| == |ps|
    ensures forall i :: 0 <= i < |ps| ==> b.0[i] == ps[i].0 && b.1[i] == ps[i].1
  {
    (seq(|ps|, i requires 0 <= i < |ps| => ps[i].0), seq(|ps|, i requires 0 <= i < |ps| => ps[i].1))
  }

  function Abs(x: int): nat { if x < 0 then -x else x }

  lemma {:induction false} MulGrows(m: nat, n: nat)
    requires m >= 1
    ensures m * n >= n
    decreases m
  {
    if m > 1 {
      MulGrows(m - 1, n);
      assert m * n == (m - 1) * n + n;
    }
  }

  /** The remainder is the one `r` with `x == q * b + r` and `0 <= r < |b|`,
      and the quotient is then `q`. */
  lemma ModUnique(x: int, b: int, q: int, r: int)
    requires b != 0 && x == q * b + r && 0 <= r < Abs(b)
    ensures x % b == r && x / b == q
  {
    var q', r' := x / b, x % b;
    assert x == q' * b + r';
    var d := q - q';
    assert d * b == r' - r;
    if d != 0 {
      MulGrows(Abs(d), Abs(b));
      assert false;
    }
  }

  /** `n % batch_size == 0` for `n = k * |batch_size| + c` with
      `0 <= c <= |batch_size|`: only at the two ends. Python's and Dafny's
      remainders agree on whether it is zero, for either sign of the
      divisor. */
  lemma DivisibleAtEnds(k: nat, c: int, bs: int)
    requires bs != 0 && 0 <= c <= Abs(bs)
    ensures (k * Abs(bs) + c) % bs == 0 <==> c == 0 || c == Abs(bs)
  {
    var sign := if bs > 0 then 1 else -1;
    assert Abs(bs) == sign * bs;
    if c == Abs(bs) {
      ModUnique(k * Abs(bs) + c, bs, sign * (k + 1), 0);
    } else {
      ModUnique(k * Abs(bs) + c, bs, sign * k, c);
    }
  }

  /** `r` holds, for each `j`, the `take` instances starting at
      `j * stride`. */
  ghost predicate StridedPrefix<C, L>(items: seq<(C, L)>, take: nat, stride: nat, r: seq<Batch<C, L>>) {
    forall j :: 0 <= j < |r| ==>
      j * stride + take <= |items| && r[j] == Unzip(items[j * stride..j * stride + take])
  }

  /** ... and one batch for every stride the instances cover in full. */
  ghost predicate IsStrided<C, L>(items: seq<(C, L)>, take: nat, stride: nat, r: seq<Batch<C, L>>)
    requires 0 < stride
  {
    |r| == |items| / stride && StridedPrefix(items, take, stride, r)
  }

  lemma StridedCons<C, L>(items: seq<(C, L)>, take: nat, stride: nat, rest: seq<Batch<C, L>>)
    requires 0 < stride && take <= stride <= |items|
    requires IsStrided(items[stride..], take, stride, rest)
    ensures IsStrided(items, take, stride, [Unzip(items[..take])] + rest)
  {
    ModUnique(|items|, stride, (|items| - stride) / stride + 1, (|items| - stride) % stride);
    var r := [Unzip(items[..take])] + rest;
    forall j | 0 <= j < |r|
      ensures j * stride + take <= |items| && r[j] == Unzip(items[j * stride..j * stride + take])
    {
      if j > 0 {
        var i := j - 1;
        assert j * stride == i * stride + stride;
        assert items[stride..][i * stride..i * stride + take] == items[j * stride..j * stride + take];
      }
    }
  }

  /** Batches of `take` instances, one per `stride` instances consumed.
      With `stride == take == b` these are consecutive batches of `b`, as a
      batch size promises; with `take == b` and `stride == b + 1` they are
      what `generate_batches` yields as written, where the instance after
      each batch is consumed and lost. Either way a trailing run shorter
      than a stride is never yielded. */
  function Strided<C, L>(items: seq<(C, L)>, take: nat, stride: nat): (r: seq<Batch<C, L>>)
    requires take <= stride && 0 < stride
    ensures IsStrided(items, take, stride, r)
    decreases |items|
  {
    if |items| < stride then
      ModUnique(|items|, stride, 0, |items|);
      []
    else
      var rest := Strided(items[stride..], take, stride);
      StridedCons(items, take, stride, rest);
      [Unzip(items[..take])] + rest
  }

  /** The strided batches are determined by the instances. */
  lemma StridedUnique<C, L>(items: seq<(C, L)>, take: nat, stride: nat, r: seq<Batch<C, L>>)
    requires take <= stride && 0 < stride
    requires IsStrided(items, take, stride, r)
    ensures r == Strided(items, take, stride)
  {
  }

  /** Appending the batch that starts where the last one's stride ends. */
  lemma StridedSnoc<C, L>(items: seq<(C, L)>, take: nat, stride: nat, r: seq<Batch<C, L>>, base: nat)
    requires StridedPrefix(items, take, stride, r)
    requires base == |r| * stride && base + take <= |items|
    ensures StridedPrefix(items, take, stride, r + [Unzip(items[base..base + take])])
    ensures (|r| + 1) * stride == base + stride
  {
  }

  lemma UnzipSnoc<C, L>(items: seq<(C, L)>, lo: nat, hi: nat)
    requires lo <= hi < |items|
    ensures Unzip(items[lo..hi + 1]) ==
      (Unzip(items[lo..hi]).0 + [items[hi].0], Unzip(items[lo..hi]).1 + [items[hi].1])
  {
    var u, v := Unzip(items[lo..hi + 1]), Unzip(items[lo..hi]);
    assert u.0 == v.0 + [items[hi].0];
    assert u.1 == v.1 + [items[hi].1];
  }

  /** The step of `generate_batches` that yields the `b` instances before
      the one at `base + b`, consuming that one too. */
  lemma YieldAsWritten<C, L>(items: seq<(C, L)>, b: nat, r: seq<Batch<C, L>>, base: nat)
    requires StridedPrefix(items, b, b + 1, r)
    requires base == |r| * b + |r| && base + b < |items|
    ensures StridedPrefix(items, b, b + 1, r + [Unzip(items[base..base + b])])
    ensures (|r| + 1) * b == |r| * b + b
  {
    assert base == |r| * (b + 1);
    StridedSnoc(items, b, b + 1, r, base);
  }

  /** What `generate_batches` as written has built after `t` instances:
      `n` counts the kept ones, each yielded batch cost one instance more,
      and the current batch holds the instances since the last yield. */
  ghost predicate AsWrittenState<C, L>(items: seq<(C, L)>, b: nat, t: nat, n: nat,
                                       contexts: seq<C>, labels: seq<L>, batches: seq<Batch<C, L>>)
  {
    && t <= |items| && |contexts| <= b
    && n == |batches| * b + |contexts| && t == n + |batches|
    && (contexts, labels) == Unzip(items[t - |contexts|..t])
    && StridedPrefix(items, b, b + 1, batches)
  }

  /** One pass of the `try` block of `generate_batches` (corpus.py:118-125):
      the instance at `t` arrives; a due, non-empty batch is yielded and the
      instance dropped, otherwise the instance is kept. */
  method Receive<C, L>(items: seq<(C, L)>, batchSize: int, t: nat, n: nat,
                       contexts: seq<C>, labels: seq<L>, batches: seq<Batch<C, L>>)
    returns (n': nat, contexts': seq<C>, labels': seq<L>, batches': seq<Batch<C, L>>)
    requires batchSize != 0 && t < |items|
    requires AsWrittenState(items, Abs(batchSize), t, n, contexts, labels, batches)
    ensures AsWrittenState(items, Abs(batchSize), t + 1, n', contexts', labels', batches')
    ensures |batches'| == |batches| + (if |contexts| == Abs(batchSize) then 1 else 0)
  {
    var b := Abs(batchSize);
    var item := items[t];
    var due := n % batchSize == 0;
    assert due <==> |contexts| == 0 || |contexts| == b by {
      DivisibleAtEnds(|batches|, |contexts|, batchSize);
    }
    if due && |contexts| > 0 {
      YieldAsWritten(items, b, batches, t - b);
      n', contexts', labels', batches' := n, [], [], batches + [(contexts, labels)];
    } else {
      UnzipSnoc(items, t - |contexts|, t);
      n', contexts', labels', batches' := n + 1, contexts + [item.0], labels + [item.1], batches;
    }
  }

  /** `generate_batches(indexer, batch_size)` as written (corpus.py:108-127),
      over the instances of the corpus. `n % batch_size` raises on a zero
      batch size as soon as one instance arrives. */
  method GenerateBatches<C, L>(items: seq<(C, L)>, batchSize: int) returns (r: Outcome<seq<Batch<C, L>>>)
    ensures r.Failure? <==> batchSize == 0 && |items| > 0
    ensures r.Failure? ==> r.error == ZeroBatchSize
    ensures r.Success? ==> IsStrided(items, Abs(batchSize), Abs(batchSize) + 1, r.value)
  {
    var b := Abs(batchSize);
    var contexts: seq<C>, labels: seq<L>, n: nat := [], [], 0;
    var batches: seq<Batch<C, L>> := [];
    var t := 0;
    while t < |items|
      invariant batchSize == 0 ==> t == 0
      invariant AsWrittenState(items, b, t, n, contexts, labels, batches)
    {
      if batchSize == 0 {
        return Failure(ZeroBatchSize);
      }
      n, contexts, labels, batches := Receive(items, batchSize, t, n, contexts, labels, batches);
      t := t + 1;
    }
    assert |items| == |batches| * (b + 1) + |contexts|;
    ModUnique(|items|, b + 1, |batches|, |contexts|);
    return Success(batches);
  }

  /** `generate_batches` as evidently intended: the instance that completes
      a batch is kept in it and the batch is yielded at once. */
  method GenerateBatchesFixed<C, L>(items: seq<(C, L)>, batchSize: int) returns (r: Outcome<seq<Batch<C, L>>>)
    ensures r.Failure? <==> batchSize == 0 && |items| > 0
    ensures r.Failure? ==> r.error == ZeroBatchSize
    ensures r.Success? && batchSize != 0 ==> IsStrided(items, Abs(batchSize), Abs(batchSize), r.value)
    ensures r.Success? && batchSize == 0 ==> r.value == []
  {
    var b := Abs(batchSize);
    var contexts: seq<C>, labels: seq<L>, n := [], [], 0;
    var batches: seq<Batch<C, L>> := [];
    while n < |items|
      invariant 0 <= n <= |items|
      invariant batchSize == 0 ==> n == 0 && batches == []
      invariant batchSize != 0 ==> |contexts| < b
      invariant n - |contexts| == |batches| * b
      invariant (contexts, labels) == Unzip(items[n - |contexts|..n])
      invariant StridedPrefix(items, b, b, batches)
    {
      var item := items[n];
      if batchSize == 0 {
        return Failure(ZeroBatchSize);
      }
      UnzipSnoc(items, n - |contexts|, n);
      contexts := contexts + [item.0];
      labels := labels + [item.1];
      n := n + 1;
      DivisibleAtEnds(|batches|, |contexts|, batchSize);
      if n % batchSize == 0 {
        StridedSnoc(items, b, b, batches, n - b);
        batches := batches + [(contexts, labels)];
        contexts, labels := [], [];
      }
    }
    if batchSize != 0 {
      ModUnique(|items|, b, |batches|, |contexts|);
    }
    return Success(batches);
  }

  /** Two instances in batches of one: as written only the first is ever
      yielded; as intended each is a batch of its own. */
  lemma DroppedInstance<C, L>(x: (C, L), y: (C, L))
    ensures Strided([x, y], 1, 2) == [([x.0], [x.1])]
    ensures Strided([x, y], 1, 1) == [([x.0], [x.1]), ([y.0], [y.1])]
  {
    assert [x, y][2..] == [];
    assert [x, y][1..][1..] == [];
    var u, v := Unzip([x, y][..1]), Unzip([x, y][1..][..1]);
    assert u.0 == [x.0] && u.1 == [x.1];
    assert v.0 == [y.0] && v.1 == [y.1];
  }
}

=== FILE: documents.dfy ===
/** JSON-like documents as the experiment store holds them, the exceptions the
    core can raise, and the two Python idioms the core leans on: truthiness and
    `dict.get`. */
module Documents {
  import opened Wrappers

  /** A document: a mapping (string keys), a sequence, or a scalar. Mapping
      equality ignores insertion order, as Python's `dict.__eq__` does. */
  datatype Json =
    | Null
    | Bool(b: bool)
    | Num(n: real)
    | Str(s: string)
    | Arr(items: seq<Json>)
    | Obj(fields: map<string, Json>)

  /** The exceptions of the modelled code, one constructor per distinct cause. */
  datatype Error =
    | EmptyPath                      // `path[0]` on an empty path (IndexError)
    | NotAMapping                    // subscripting or `.get` on a non-dict
    | NotAList                       // predicate segment on a non-list (AssertionError)
    | NotIterable                    // `for x in v` over a scalar
    | MissingField(field: string)    // `d[field]` with the key absent (KeyError)
    | NotAppendable                  // `l + [item]` with a truthy non-list `l`
    | NotMergeable                   // `dict(d, **item)` with a `d` that is neither a
                                     // dict nor a list of key/value pairs
    | Unhashable                     // `set(...)` over a dict or list element
    | ModelNotFound                  // `next(...)` finding no model (StopIteration)
    | ExistingModelParams            // ExistingModelParamsException
    | ParamsMissing                  // "Experiment params missing"
    | SessionRequired                // "... requires session context manager"
    | MetaNotDict                    // "add_meta input must be dict"
    | UnknownPadDirection(dir: string)
    | InvalidSide(side: string)
    | ZeroBatchSize                  // `n % 0` (ZeroDivisionError)
    | NonStringName                  // a layer name that is a scalar but not a string:
                                     // mappings here have string keys only

  type Outcome<T> = Result<T, Error>

  /** Python truthiness: `None`, `False`, `0`, `""`, `[]` and `{}` are false. */
  predicate Truthy(j: Json) {
    match j
    case Null => false
    case Bool(b) => b
    case Num(n) => n != 0.0
    case Str(s) => s != ""
    case Arr(xs) => xs != []
    case Obj(m) => m != map[]
  }

  /** `d.get(k)`: the stored value, or `None` when the key is absent. */
  function Get(m: map<string, Json>, k: string): (v: Json)
    ensures k !in m ==> v == Null
    ensures k in m ==> v == m[k]
  {
    if k in m then m[k] else Null
  }

  /** `d.get(k, default)`. */
  function GetOrDefault(m: map<string, Json>, k: string, default: Json): (v: Json)
    ensures k !in m ==> v == default
    ensures k in m ==> v == m[k]
  {
    if k in m then m[k] else default
  }

  /** Python's `sub in s` on strings: `sub` occurs in `s`. */
  predicate Contains(s: string, sub: string) {
    exists i :: 0 <= i <= |s| && sub <= s[i..]
  }

  /** A scalar: the values Python can put in a `set` among those a document holds. */
  predicate Hashable(j: Json) {
    !j.Arr? && !j.Obj?
  }

  /** The empty mapping `{}`. */
  const Empty: Json := Obj(map[])
}

=== FILE: hashing.dfy ===
/** The canonical form behind `make_hash` (experiment.py:72-90): `freeze` turns
    a dict into a frozenset of (key, frozen value) pairs, a list into a tuple of
    frozen elements, and leaves a scalar as it is. Python's numeric `hash` of
    that form is process-specific and is not modelled; two documents hash alike
    exactly when their frozen forms are equal. */
module Hashing {
  import opened Documents

  datatype Frozen =
    | Scalar(j: Json)
    | Tuple(elems: seq<Frozen>)
    | FrozenSet(pairs: set<(string, Frozen)>)

  function Freeze(j: Json): (f: Frozen)
    ensures Hashable(j) <==> f.Scalar?
    ensures Hashable(j) ==> f == Scalar(j)
    ensures j.Arr? <==> f.Tuple?
    ensures j.Arr? ==> |f.elems| == |j.items|
  {
    match j
    case Arr(xs) => Tuple(seq(|xs|, i requires 0 <= i < |xs| => Freeze(xs[i])))
    case Obj(m) => FrozenSet(set k | k in m :: (k, Freeze(m[k])))
    case _ => Scalar(j)
  }

  /** The pair set of a frozen dict has one pair per key of the dict. */
  lemma FrozenPairsOfKey(m: map<string, Json>, k: string, f: Frozen)
    requires (k, f) in Freeze(Obj(m)).pairs
    ensures k in m && f == Freeze(m[k])
  {
  }

  /** Freezing loses nothing: equal frozen forms come from equal documents.
      Together with determinism this makes "same hash input" and `==`
      the same relation on parameter documents. */
  lemma {:induction false} FreezeInjective(a: Json, b: Json)
    requires Freeze(a) == Freeze(b)
    ensures a == b
    decreases a
  {
    match a
    case Arr(xs) =>
      var ys := b.items;
      assert |xs| == |ys|;
      forall i | 0 <= i < |xs|
        ensures xs[i] == ys[i]
      {
        assert Freeze(a).elems[i] == Freeze(b).elems[i];
        FreezeInjective(xs[i], ys[i]);
      }
      assert xs == ys;
    case Obj(m) =>
      var n := b.fields;
      forall k | k in m
        ensures k in n && m[k] == n[k]
      {
        assert (k, Freeze(m[k])) in Freeze(b).pairs;
        FrozenPairsOfKey(n, k, Freeze(m[k]));
        FreezeInjective(m[k], n[k]);
      }
      forall k | k in n
        ensures k in m
      {
        assert (k, Freeze(n[k])) in Freeze(a).pairs;
      }
      assert m == n;
    case _ =>
  }

  /** `make_hash(a) == make_hash(b)` holds exactly for equal documents (up to
      the hash function's own collisions). */
  lemma SameFrozenIffEqual(a: Json, b: Json)
    ensures Freeze(a) == Freeze(b) <==> a == b
  {
    if Freeze(a) == Freeze(b) {
      FreezeInjective(a, b);
    }
  }

  /** A dict literal built from `pairs` the way Python's `dict(pairs)` does:
      a later pair with the same key overwrites an earlier one. */
  function DictOf(pairs: seq<(string, Json)>): (m: map<string, Json>)
    ensures forall k :: k in m <==> exists i :: 0 <= i < |pairs| && pairs[i].0 == k
    decreases |pairs|
  {
    if |pairs| == 0 then map[]
    else DictOf(pairs[..|pairs| - 1])[pairs[|pairs| - 1].0 := pairs[|pairs| - 1].1]
  }

  predicate DistinctKeys(pairs: seq<(string, Json)>) {
    forall i, j :: 0 <= i < |pairs| && 0 <= j < |pairs| && pairs[i].0 == pairs[j].0 ==> i == j
  }

  /** Later pairs win: a key maps to the value of its last pair. */
  lemma {:induction false} DictOfLastWins(pairs: seq<(string, Json)>, i: int)
    requires 0 <= i < |pairs|
    requires forall j :: i < j < |pairs| ==> pairs[j].0 != pairs[i].0
    ensures pairs[i].0 in DictOf(pairs) && DictOf(pairs)[pairs[i].0] == pairs[i].1
    decreases |pairs|
  {
    if i < |pairs| - 1 {
      var init := pairs[..|pairs| - 1];
      assert init[i] == pairs[i];
      DictOfLastWins(init, i);
    }
  }

  /** With distinct keys every pair survives in the built dict. */
  lemma {:induction false} DictOfHasEveryPair(pairs: seq<(string, Json)>, i: int)
    requires DistinctKeys(pairs)
    requires 0 <= i < |pairs|
    ensures pairs[i].0 in DictOf(pairs) && DictOf(pairs)[pairs[i].0] == pairs[i].1
    decreases |pairs|
  {
    if i < |pairs| - 1 {
      var init := pairs[..|pairs| - 1];
      assert DistinctKeys(init);
      assert init[i] == pairs[i];
      DictOfHasEveryPair(init, i);
    }
  }

  /** Key order does not matter: the same entries written in any order
      freeze to the same form (the doctest at experiment.py:79-82). */
  lemma KeyOrderIrrelevant(p: seq<(string, Json)>, q: seq<(string, Json)>)
    requires DistinctKeys(p) && DistinctKeys(q)
    requires multiset(p) == multiset(q)
    ensures Freeze(Obj(DictOf(p))) == Freeze(Obj(DictOf(q)))
  {
    var a, b := DictOf(p), DictOf(q);
    forall k | k in a
      ensures k in b && a[k] == b[k]
    {
      var i :| 0 <= i < |p| && p[i].0 == k;
      DictOfHasEveryPair(p, i);
      assert p[i] in multiset(q);
      var j :| 0 <= j < |q| && q[j] == p[i];
      DictOfHasEveryPair(q, j);
    }
    forall k | k in b
      ensures k in a
    {
      var j :| 0 <= j < |q| && q[j].0 == k;
      assert q[j] in multiset(p);
    }
    assert a == b;
  }

  /** List order matters: swapping two different elements of a list changes
      its frozen form, so equal-hash comparison of parameters is order-aware
      for lists. */
  lemma ListOrderMatters(xs: seq<Json>, i: nat, j: nat)
    requires i < j < |xs| && xs[i] != xs[j]
    ensures Freeze(Arr(xs)) != Freeze(Arr(xs[i := xs[j]][j := xs[i]]))
  {
    var ys := xs[i := xs[j]][j := xs[i]];
    assert ys[i] != xs[i];
    if Freeze(Arr(xs)) == Freeze(Arr(ys)) {
      FreezeInjective(Arr(xs), Arr(ys));
    }
  }
}

=== FILE: mutators.dfy ===
/** The update transforms of experiment.py:93-102 and 171-220. The source
    builds closures that mutate a stored document in place; here each one is
    a function from the document (or the value at a path) to its new value. */
module Mutators {
  import opened Wrappers
  import opened Documents
  import opened Paths
  import opened Hashing

  /** `merge(d1, d2)`: a right-biased shallow merge; a nested dict of `d2`
      replaces the one of `d1` wholesale. */
  function Merge(d1: map<string, Json>, d2: map<string, Json>): (r: map<string, Json>)
    ensures r.Keys == d1.Keys + d2.Keys
    ensures forall k :: k in d2 ==> r[k] == d2[k]
    ensures forall k :: k in d1 && k !in d2 ==> r[k] == d1[k]
  {
    d1 + d2
  }

  /** The update function of `extend_in`: `(l or []) + [item]`. A falsy
      value (absent, `None`, `[]`, `{}`, `0`, `""`) starts a new list; a
      truthy non-list cannot be concatenated with a list. */
  function AppendOrInit(l: Json, item: Json): (r: Outcome<Json>)
    ensures r.Success? <==> !Truthy(l) || l.Arr?
    ensures r.Success? ==>
      r.value.Arr? && |r.value.items| > 0 && r.value.items[|r.value.items| - 1] == item &&
      r.value.items[..|r.value.items| - 1] == (if l.Arr? then l.items else [])
  {
    if !Truthy(l) then Success(Arr([item]))
    else if l.Arr? then Success(Arr(l.items + [item]))
    else Failure(NotAppendable)
  }

  function Appending(item: Json): Transform {
    l => AppendOrInit(l, item)
  }

  /** One element of the iterable that `dict(d)` walks: it must unpack into
      a key and a value. A two-element list gives its two elements and a
      two-character string its two characters; anything else raises. A key
      that is a scalar but not a string is reported as `NonStringName`,
      because mappings here have string keys. */
  function PairOf(x: Json): Outcome<(string, Json)> {
    match x
    case Arr(kv) =>
      if |kv| != 2 then Failure(NotMergeable)
      else if kv[0].Str? then Success((kv[0].s, kv[1]))
      else if Hashable(kv[0]) then Failure(NonStringName)
      else Failure(Unhashable)
    case Str(t) => if |t| == 2 then Success(([t[0]], Str([t[1]]))) else Failure(NotMergeable)
    case _ => Failure(NotMergeable)
  }

  /** The pairs of a list handed to `dict(...)`, in order; the first element
      that cannot be unpacked raises. */
  function Pairs(xs: seq<Json>): (r: Outcome<seq<(string, Json)>>)
    ensures r.Success? <==> forall i :: 0 <= i < |xs| ==> PairOf(xs[i]).Success?
    ensures r.Success? ==> |r.value| == |xs| && forall i :: 0 <= i < |xs| ==> r.value[i] == PairOf(xs[i]).value
    ensures r.Failure? ==> exists j :: 0 <= j < |xs| && PairOf(xs[j]) == Failure(r.error) &&
                                      (forall i :: 0 <= i < j ==> PairOf(xs[i]).Success?)
    decreases |xs|
  {
    if |xs| == 0 then Success([])
    else
      var init :- Pairs(xs[..|xs| - 1]);
      var p :- PairOf(xs[|xs| - 1]);
      Success(init + [p])
  }

  /** `dict(d or {})`: a falsy value gives `{}`, a dict gives itself, and a
      list of key/value pairs gives the dict of those pairs; any other value
      raises. */
  function AsDict(d: Json): (r: Outcome<map<string, Json>>)
    ensures !Truthy(d) ==> r == Success(map[])
    ensures d.Obj? ==> r == Success(d.fields)
    ensures r.Success? <==>
      !Truthy(d) || d.Obj? || (d.Arr? && forall i :: 0 <= i < |d.items| ==> PairOf(d.items[i]).Success?)
    ensures r.Success? && d.Arr? ==> forall k :: k in r.value <==>
      exists i :: 0 <= i < |d.items| && PairOf(d.items[i]).Success? && PairOf(d.items[i]).value.0 == k
  {
    if !Truthy(d) then Success(map[])
    else
      match d
      case Obj(m) => Success(m)
      case Arr(xs) =>
        var ps :- Pairs(xs);
        Success(DictOf(ps))
      case _ => Failure(NotMergeable)
  }

  /** In a list of pairs, a key takes the value of its last pair, since
      `dict(...)` keeps the last binding. */
  lemma AsDictLastPairWins(d: Json, i: nat)
    requires d.Arr? && AsDict(d).Success? && i < |d.items|
    requires forall j :: i < j < |d.items| ==> PairOf(d.items[j]).value.0 != PairOf(d.items[i]).value.0
    ensures PairOf(d.items[i]).value.0 in AsDict(d).value
    ensures AsDict(d).value[PairOf(d.items[i]).value.0] == PairOf(d.items[i]).value.1
  {
    DictOfLastWins(Pairs(d.items).value, i);
  }

  /** The update function of `assign_in`: `merge(d or {}, item)`, which is
      `dict(d or {}, **item)`. */
  function MergeOrInit(d: Json, item: map<string, Json>): (r: Outcome<Json>)
    ensures r.Success? <==> AsDict(d).Success?
    ensures r.Success? ==> r.value.Obj? && r.value.fields == Merge(AsDict(d).value, item)
    ensures !Truthy(d) ==> r == Success(Obj(item))
    ensures d.Obj? ==> r == Success(Obj(Merge(d.fields, item)))
  {
    var base :- AsDict(d);
    assert !Truthy(d) ==> Merge(base, item) == item;
    Success(Obj(Merge(base, item)))
  }

  function Merging(item: map<string, Json>): Transform {
    d => MergeOrInit(d, item)
  }

  /** The two outcomes of `update_in` the mutators rely on: a predicate that
      matches nothing is a no-op, and a readable path whose value the
      update function accepts is updated. */
  lemma UpdateInOutcomes(doc: Json, path: Path, f: Transform)
    ensures Read(doc, path) == Success(NoMatch) ==> UpdateIn(doc, path, f) == Success(doc)
    ensures Read(doc, path).Success? && !Read(doc, path).value.NoMatch? &&
            f(Current(Read(doc, path).value)).Success?
            ==> UpdateIn(doc, path, f).Success?
  {
    if Read(doc, path) == Success(NoMatch) {
      NoMatchLeavesDocument(doc, path, f);
    } else if Read(doc, path).Success? && f(Current(Read(doc, path).value)).Success? {
      UpdateSucceedsWhereReadDoes(doc, path, f);
    }
  }

  /** `extend_in(path, item)` applied to a document. It raises only where
      the path cannot be followed or the value there is a truthy non-list; a
      predicate that matches nothing leaves the document alone. */
  function ExtendIn(doc: Json, path: Path, item: Json): (r: Outcome<Json>)
    ensures Read(doc, path) == Success(NoMatch) ==> r == Success(doc)
    ensures r.Failure? ==>
      Read(doc, path).Failure? ||
      (!Read(doc, path).value.NoMatch? &&
       Truthy(Current(Read(doc, path).value)) && !Current(Read(doc, path).value).Arr?)
    ensures r.Success? && doc.Obj? ==>
      |path| > 0 && path[0].Key? && r.value.Obj? && r.value.fields.Keys == doc.fields.Keys + {path[0].name} &&
      forall k :: k in doc.fields && k != path[0].name ==> r.value.fields[k] == doc.fields[k]
  {
    UpdateInOutcomes(doc, path, Appending(item));
    UpdateIn(doc, path, Appending(item))
  }

  /** `extend_in([key], item)`: the one-key path the constructor uses
      appends at that key of a mapping and raises on anything else. */
  lemma ExtendInAtKey(doc: Json, k: string, item: Json)
    ensures !doc.Obj? ==> ExtendIn(doc, [Key(k)], item).Failure?
    ensures doc.Obj? ==>
      (ExtendIn(doc, [Key(k)], item).Success? <==> AppendOrInit(Get(doc.fields, k), item).Success?)
    ensures doc.Obj? && AppendOrInit(Get(doc.fields, k), item).Success? ==>
      ExtendIn(doc, [Key(k)], item).value == Obj(doc.fields[k := AppendOrInit(Get(doc.fields, k), item).value])
  {
  }

  /** `assign_in(path, item)` applied to a document. It raises only where
      the path cannot be followed or the value there is not `dict`-able; a
      predicate that matches nothing leaves the document alone. */
  function AssignIn(doc: Json, path: Path, item: map<string, Json>): (r: Outcome<Json>)
    ensures Read(doc, path) == Success(NoMatch) ==> r == Success(doc)
    ensures r.Failure? ==>
      Read(doc, path).Failure? ||
      (!Read(doc, path).value.NoMatch? && AsDict(Current(Read(doc, path).value)).Failure?)
    ensures r.Success? && doc.Obj? ==>
      |path| > 0 && path[0].Key? && r.value.Obj? && r.value.fields.Keys == doc.fields.Keys + {path[0].name} &&
      forall k :: k in doc.fields && k != path[0].name ==> r.value.fields[k] == doc.fields[k]
  {
    UpdateInOutcomes(doc, path, Merging(item));
    UpdateIn(doc, path, Merging(item))
  }

  /** After `extend_in`, the list at the path is the old list (or nothing,
      if the old value was falsy) followed by the item; a path whose
      predicate matched nothing leaves the document as it was. */
  lemma ExtendInAppendsAtPath(doc: Json, path: Path, item: Json)
    requires |path| > 0 && path[|path| - 1].Key? && Stable(path)
    requires ExtendIn(doc, path, item).Success?
    ensures Read(doc, path).Success?
    ensures Read(doc, path).value.NoMatch? ==> ExtendIn(doc, path, item).value == doc
    ensures !Read(doc, path).value.NoMatch? ==>
      var prev := Current(Read(doc, path).value);
      Read(ExtendIn(doc, path, item).value, path) ==
        Success(At(Arr((if prev.Arr? then prev.items else []) + [item])))
  {
    UpdateThenRead(doc, path, Appending(item));
    if !Read(doc, path).value.NoMatch? {
      var prev := Current(Read(doc, path).value);
      var r := AppendOrInit(prev, item).value;
      assert r.items == r.items[..|r.items| - 1] + [item];
    }
  }

  /** After `assign_in`, the dict at the path is the old dict merged with
      the patch, the patch's keys winning. */
  lemma AssignInMergesAtPath(doc: Json, path: Path, item: map<string, Json>)
    requires |path| > 0 && path[|path| - 1].Key? && Stable(path)
    requires AssignIn(doc, path, item).Success?
    ensures Read(doc, path).Success?
    ensures Read(doc, path).value.NoMatch? ==> AssignIn(doc, path, item).value == doc
    ensures !Read(doc, path).value.NoMatch? ==> AsDict(Current(Read(doc, path).value)).Success?
    ensures !Read(doc, path).value.NoMatch? ==>
      var prev := Current(Read(doc, path).value);
      Read(AssignIn(doc, path, item).value, path) ==
        Success(At(Obj(Merge(AsDict(prev).value, item))))
  {
    UpdateThenRead(doc, path, Merging(item));
  }

  /** `append(field, item)`: start `[item]` when the field is absent, else
      call `.append` on the stored value, which only a list has. */
  function Append(element: map<string, Json>, field: string, item: Json): (r: Outcome<map<string, Json>>)
    ensures r.Success? <==> field !in element || element[field].Arr?
    ensures r.Success? ==>
      r.value.Keys == element.Keys + {field} &&
      (forall k :: k in element && k != field ==> r.value[k] == element[k]) &&
      r.value[field].Arr? &&
      r.value[field].items == (if field in element then element[field].items else []) + [item]
  {
    if field !in element then Success(element[field := Arr([item])])
    else if element[field].Arr? then Success(element[field := Arr(element[field].items + [item])])
    else Failure(NotAppendable)
  }

  /** `extend(field, item)`: a set-style add. An absent field starts as
      `[item]`; a list gets the item appended only when no equal element is
      already there; any other value is left alone. Building `set(...)`
      raises when the list or the item holds a dict or a list. */
  function Extend(element: map<string, Json>, field: string, item: Json): (r: Outcome<map<string, Json>>)
    ensures field in element && !element[field].Arr? ==> r == Success(element)
    ensures r.Failure? <==>
      (field !in element || element[field].Arr?) &&
      (!Hashable(item) || (field in element && exists x :: x in element[field].items && !Hashable(x)))
    ensures r.Success? ==> forall k :: k in element && k != field ==> k in r.value && r.value[k] == element[k]
    ensures r.Success? && field !in element ==> r.value == element[field := Arr([item])]
    ensures r.Success? && field in element && element[field].Arr? && item in element[field].items ==>
      r.value == element
    ensures r.Success? && field in element && element[field].Arr? && item !in element[field].items ==>
      r.value == element[field := Arr(element[field].items + [item])]
    ensures r.Success? && (field !in element || element[field].Arr?) ==>
      field in r.value && r.value[field].Arr? && item in r.value[field].items &&
      (forall x :: x in r.value[field].items ==> x == item || (field in element && x in element[field].items)) &&
      (field in element ==>
        |element[field].items| <= |r.value[field].items| <= |element[field].items| + 1 &&
        r.value[field].items[..|element[field].items|] == element[field].items)
  {
    var e := if field !in element then element[field := Arr([item])] else element;
    var xs := e[field];
    if !xs.Arr? then Success(e)
    else if !Hashable(item) || exists x :: x in xs.items && !Hashable(x) then Failure(Unhashable)
    else if item in xs.items then Success(e)
    else Success(e[field := Arr(xs.items + [item])])
  }

  /** Adding a tag twice is adding it once (experiment.py:198-208). */
  lemma ExtendIdempotent(element: map<string, Json>, field: string, item: Json)
    requires Extend(element, field, item).Success?
    ensures Extend(Extend(element, field, item).value, field, item) == Extend(element, field, item)
  {
    var once := Extend(element, field, item).value;
    if field !in element || element[field].Arr? {
      assert item in once[field].items;
      forall x | x in once[field].items
        ensures Hashable(x)
      {
      }
    }
  }

  /** The list comprehension `[x for x in xs if x != item]`. */
  function Without(xs: seq<Json>, item: Json): (r: seq<Json>)
    ensures forall x :: x in r <==> x in xs && x != item
    ensures |r| <= |xs|
    ensures forall y :: y != item ==> multiset(r)[y] == multiset(xs)[y]
    decreases |xs|
  {
    if |xs| == 0 then []
    else
      var init := Without(xs[..|xs| - 1], item);
      assert xs == xs[..|xs| - 1] + [xs[|xs| - 1]];
      if xs[|xs| - 1] == item then init else init + [xs[|xs| - 1]]
  }

  /** The filter keeps the relative order of what it keeps: filtering a
      concatenation is concatenating the filtered parts. */
  lemma {:induction false} WithoutDistributes(a: seq<Json>, b: seq<Json>, item: Json)
    ensures Without(a + b, item) == Without(a, item) + Without(b, item)
    decreases |b|
  {
    if |b| > 0 {
      var b' := b[..|b| - 1];
      assert (a + b)[..|a + b| - 1] == a + b';
      assert (a + b)[|a + b| - 1] == b[|b| - 1];
      WithoutDistributes(a, b', item);
    } else {
      assert a + b == a;
    }
  }

  /** `remove(field, item)`: drop every element equal to the item; an absent
      field or a non-list value is left alone. */
  function Remove(element: map<string, Json>, field: string, item: Json): (r: map<string, Json>)
    ensures field !in element || !element[field].Arr? ==> r == element
    ensures r.Keys == element.Keys
    ensures forall k :: k in element && k != field ==> r[k] == element[k]
    ensures field in element && element[field].Arr? ==> r[field] == Arr(Without(element[field].items, item))
    ensures field in element && element[field].Arr? ==>
      r[field].Arr? && item !in r[field].items &&
      (forall x :: x in r[field].items <==> x in element[field].items && x != item)
  {
    if field !in element then element
    else if element[field].Arr? then element[field := Arr(Without(element[field].items, item))]
    else element
  }

  /** Removing twice is removing once. */
  lemma RemoveIdempotent(element: map<string, Json>, field: string, item: Json)
    ensures Remove(Remove(element, field, item), field, item) == Remove(element, field, item)
  {
    if field in element && element[field].Arr? {
      var once := Remove(element, field, item);
      var xs := once[field].items;
      assert Without(xs, item) == xs by {
        WithoutNoOp(xs, item);
      }
    }
  }

  /** Filtering out an item that is not there changes nothing. */
  lemma {:induction false} WithoutNoOp(xs: seq<Json>, item: Json)
    requires item !in xs
    ensures Without(xs, item) == xs
    decreases |xs|
  {
    if |xs| > 0 {
      WithoutNoOp(xs[..|xs| - 1], item);
      assert xs[..|xs| - 1] + [xs[|xs| - 1]] == xs;
    }
  }
}

=== FILE: paths.dfy ===
/** The path-update engine `update_in` (experiment.py:105-164) and the read
    that a path denotes. A path is a sequence of segments; a key segment
    selects (or creates) a mapping entry, a predicate segment selects the LAST
    element of a list that satisfies it. */
module Paths {
  import opened Wrappers
  import opened Documents

  /** A path segment. `Where(field, value)` is the predicate `e[field] == value`
      that `model_pred` and `params_pred` build (experiment.py:228-237);
      `Has(field)` is the `field in e` predicate of the docstring examples. */
  datatype Segment = Key(name: string) | Where(field: string, value: Json) | Has(field: string)

  type Path = seq<Segment>

  /** The update function handed to `update_in`; it may raise. */
  type Transform = Json -> Outcome<Json>

  /** Evaluates a predicate segment on one list element. `e[field]` raises on
      a non-dict element and on a dict without the field. `field in e` tests
      the keys of a dict, the substrings of a string and the elements of a
      list, and raises on a number, a boolean or `None`. */
  function Test(s: Segment, e: Json): (r: Outcome<bool>)
    requires !s.Key?
    ensures s.Where? ==> (r.Success? <==> e.Obj? && s.field in e.fields)
    ensures s.Where? && r.Success? ==> (r.value <==> e.fields[s.field] == s.value)
    ensures s.Has? ==> (r.Success? <==> !Hashable(e) || e.Str?)
    ensures s.Has? && e.Obj? ==> r == Success(s.field in e.fields)
    ensures s.Has? && e.Arr? ==> r == Success(Str(s.field) in e.items)
    ensures s.Has? && e.Str? ==> r == Success(Contains(e.s, s.field))
  {
    match s
    case Where(f, v) =>
      if !e.Obj? then Failure(NotAMapping)
      else if f !in e.fields then Failure(MissingField(f))
      else Success(e.fields[f] == v)
    case Has(f) =>
      match e
      case Obj(m) => Success(f in m)
      case Arr(xs) => Success(Str(f) in xs)
      case Str(t) => Success(Contains(t, f))
      case _ => Failure(NotIterable)
  }

  /** Every element at an index in [lo, hi) tests false without raising. */
  predicate Unmatched(xs: seq<Json>, s: Segment, lo: nat, hi: nat)
    requires !s.Key?
  {
    forall j :: lo <= j < hi && j < |xs| ==> Test(s, xs[j]) == Success(false)
  }

  /** `xs[i]` is the last element of `xs` that satisfies `s`. */
  predicate IsLastMatch(xs: seq<Json>, s: Segment, i: nat)
    requires !s.Key?
  {
    i < |xs| && Test(s, xs[i]) == Success(true) && Unmatched(xs, s, i + 1, |xs|)
  }

  /** The reverse scan `for idx, i in list(enumerate(d))[::-1]` over the
      indices below `hi`: the first hit, scanning backwards, wins; an element
      whose test raises ends the scan with that exception. */
  function FindLast(xs: seq<Json>, s: Segment, hi: nat): (r: Outcome<Option<nat>>)
    requires !s.Key? && hi <= |xs|
    ensures r.Success? && r.value.Some? ==>
      r.value.value < hi && Test(s, xs[r.value.value]) == Success(true) &&
      Unmatched(xs, s, r.value.value + 1, hi)
    ensures r.Success? && r.value.None? ==> Unmatched(xs, s, 0, hi)
    ensures r.Failure? ==>
      exists j :: 0 <= j < hi && Test(s, xs[j]) == Failure(r.error) && Unmatched(xs, s, j + 1, hi)
    decreases hi
  {
    if hi == 0 then Success(None)
    else
      match Test(s, xs[hi - 1])
      case Failure(e) => Failure(e)
      case Success(true) => Success(Some(hi - 1))
      case Success(false) => FindLast(xs, s, hi - 1)
  }

  /** `update_in(d, path, f)`, returning the updated document. */
  function UpdateIn(d: Json, path: Path, f: Transform): (r: Outcome<Json>)
    ensures r.Success? ==> |path| > 0 && (d.Obj? || d.Arr?)
    ensures r.Success? && d.Obj? ==>
      path[0].Key? && r.value.Obj? &&
      r.value.fields.Keys == d.fields.Keys + {path[0].name} &&
      forall k :: k in d.fields && k != path[0].name ==> r.value.fields[k] == d.fields[k]
    ensures r.Success? && d.Arr? ==> r.value.Arr? && |r.value.items| == |d.items|
    decreases |path|
  {
    if |path| == 0 then Failure(EmptyPath)
    else
      match path[0]
      case Key(k) =>
        if !d.Obj? then Failure(NotAMapping)
        else if |path| == 1 then
          var v :- f(Get(d.fields, k));
          Success(Obj(d.fields[k := v]))
        else
          var c :- UpdateIn(GetOrDefault(d.fields, k, Empty), path[1..], f);
          Success(Obj(d.fields[k := c]))
      case _ =>
        if !d.Arr? then Failure(NotAList)
        else
          var found :- FindLast(d.items, path[0], |d.items|);
          match found
          case None => Success(d)
          case Some(i) =>
            var e :- if |path| == 1 then f(d.items[i]) else UpdateIn(d.items[i], path[1..], f);
            Success(Arr(d.items[i := e]))
  }

  /** Where a path leads in a document: to a value, to an absent final key,
      or to a predicate that matched nothing. */
  datatype Spot = At(value: Json) | Absent | NoMatch

  /** What the update function receives at a spot: the value, or `None`. */
  function Current(s: Spot): Json
    requires !s.NoMatch?
  {
    if s.At? then s.value else Null
  }

  /** The read a path denotes, following exactly the navigation of
      `UpdateIn`: a missing intermediate key reads as `{}`. */
  function Read(d: Json, path: Path): Outcome<Spot>
    decreases |path|
  {
    if |path| == 0 then Failure(EmptyPath)
    else
      match path[0]
      case Key(k) =>
        if !d.Obj? then Failure(NotAMapping)
        else if |path| == 1 then Success(if k in d.fields then At(d.fields[k]) else Absent)
        else Read(GetOrDefault(d.fields, k, Empty), path[1..])
      case _ =>
        if !d.Arr? then Failure(NotAList)
        else
          var found :- FindLast(d.items, path[0], |d.items|);
          match found
          case None => Success(NoMatch)
          case Some(i) => if |path| == 1 then Success(At(d.items[i])) else Read(d.items[i], path[1..])
  }

  /** Every predicate segment that is not last is followed by a key other
      than the field it tests, so updating below a matched element cannot
      change whether it matches. */
  predicate Stable(path: Path) {
    forall j :: 0 <= j < |path| - 1 && !path[j].Key? ==>
      path[j + 1].Key? && path[j + 1].name != path[j].field
  }

  lemma StableTail(path: Path)
    requires |path| > 0 && Stable(path)
    ensures Stable(path[1..])
  {
    forall j | 0 <= j < |path[1..]| - 1 && !path[1..][j].Key?
      ensures path[1..][j + 1].Key? && path[1..][j + 1].name != path[1..][j].field
    {
      assert path[1..][j] == path[j + 1] && path[1..][j + 1] == path[j + 2];
    }
  }

  /** A reverse scan whose hit is at `i` returns `i`. */
  lemma {:induction false} FindLastFindsLastMatch(xs: seq<Json>, s: Segment, i: nat, hi: nat)
    requires !s.Key? && i < hi <= |xs|
    requires Test(s, xs[i]) == Success(true) && Unmatched(xs, s, i + 1, hi)
    ensures FindLast(xs, s, hi) == Success(Some(i))
    decreases hi
  {
    if hi - 1 != i {
      assert Test(s, xs[hi - 1]) == Success(false);
      FindLastFindsLastMatch(xs, s, i, hi - 1);
    }
  }

  /** Over records that all carry the field, the reverse scan of
      `model_pred`/`params_pred` never raises, reports no match exactly when
      no record holds the value, and otherwise returns the last record that
      does (experiment.py:228-237 with 148-151). */
  lemma WhereFindsLastEqual(xs: seq<Json>, field: string, value: Json, hi: nat)
    requires hi <= |xs|
    requires forall j :: 0 <= j < hi ==> xs[j].Obj? && field in xs[j].fields
    ensures FindLast(xs, Where(field, value), hi).Success?
    ensures FindLast(xs, Where(field, value), hi) == Success(None) <==>
      forall j :: 0 <= j < hi ==> xs[j].fields[field] != value
    ensures FindLast(xs, Where(field, value), hi).value.Some? ==>
      var i := FindLast(xs, Where(field, value), hi).value.value;
      i < hi && xs[i].fields[field] == value &&
      forall j :: i < j < hi ==> xs[j].fields[field] != value
  {
  }

  /** Nothing below a fresh `{}` can be a predicate that matched nothing:
      a predicate applied there raises. */
  lemma {:induction false} ReadEmptyNeverNoMatch(path: Path)
    requires Read(Empty, path).Success?
    ensures !Read(Empty, path).value.NoMatch?
    decreases |path|
  {
    if |path| > 1 && path[0].Key? {
      assert GetOrDefault(Empty.fields, path[0].name, Empty) == Empty;
      ReadEmptyNeverNoMatch(path[1..]);
    }
  }

  /** A predicate that matches nothing makes the whole update a no-op, for
      every update function (experiment.py:148-151 and 157-160; the doctest
      at experiment.py:135-138). */
  lemma {:induction false} NoMatchLeavesDocument(d: Json, path: Path, f: Transform)
    requires Read(d, path) == Success(NoMatch)
    ensures UpdateIn(d, path, f) == Success(d)
    decreases |path|
  {
    match path[0]
    case Key(k) =>
      var child := GetOrDefault(d.fields, k, Empty);
      if k !in d.fields {
        ReadEmptyNeverNoMatch(path[1..]);
      }
      NoMatchLeavesDocument(child, path[1..], f);
      assert d.fields[k := child] == d.fields;
    case _ =>
      var found := FindLast(d.items, path[0], |d.items|).value;
      if found.Some? {
        var i := found.value;
        NoMatchLeavesDocument(d.items[i], path[1..], f);
        assert d.items[i := d.items[i]] == d.items;
      }
  }

  /** Updating at a path and then reading that path gives back what the
      update function made of the old value; if the path led to a predicate
      that matched nothing, the document is unchanged. */
  lemma {:induction false} UpdateThenRead(d: Json, path: Path, f: Transform)
    requires |path| > 0 && path[|path| - 1].Key? && Stable(path)
    requires UpdateIn(d, path, f).Success?
    ensures Read(d, path).Success?
    ensures Read(d, path).value.NoMatch? ==> UpdateIn(d, path, f).value == d
    ensures !Read(d, path).value.NoMatch? ==>
      f(Current(Read(d, path).value)).Success? &&
      Read(UpdateIn(d, path, f).value, path) == Success(At(f(Current(Read(d, path).value)).value))
    decreases |path|
  {
    var r := UpdateIn(d, path, f).value;
    if |path| > 1 {
      StableTail(path);
    }
    match path[0]
    case Key(k) =>
      if |path| > 1 {
        var child := GetOrDefault(d.fields, k, Empty);
        UpdateThenRead(child, path[1..], f);
        if Read(d, path).value.NoMatch? {
          if k !in d.fields {
            ReadEmptyNeverNoMatch(path[1..]);
          }
          assert d.fields[k := child] == d.fields;
        }
      }
    case _ =>
      var s := path[0];
      var i := FindLast(d.items, s, |d.items|).value;
      if i.Some? {
        var x := d.items[i.value];
        var rest := path[1..];
        assert rest[0] == path[1];
        UpdateThenRead(x, rest, f);
        var c := UpdateIn(x, rest, f).value;
        if Read(d, path).value.NoMatch? {
          assert d.items[i.value := x] == d.items;
        } else {
          assert Test(s, c) == Test(s, x);
          assert r.items[i.value] == c;
          FindLastFindsLastMatch(r.items, s, i.value, |r.items|);
        }
      }
  }

  /** Where the read succeeds and the update function accepts what it
      finds, the update succeeds too: the two navigate alike. */
  lemma {:induction false} UpdateSucceedsWhereReadDoes(d: Json, path: Path, f: Transform)
    requires Read(d, path).Success?
    requires Read(d, path).value.NoMatch? || f(Current(Read(d, path).value)).Success?
    ensures UpdateIn(d, path, f).Success?
    decreases |path|
  {
    if |path| > 1 {
      match path[0]
      case Key(k) =>
        UpdateSucceedsWhereReadDoes(GetOrDefault(d.fields, k, Empty), path[1..], f);
      case _ =>
        var found := FindLast(d.items, path[0], |d.items|).value;
        if found.Some? {
          UpdateSucceedsWhereReadDoes(d.items[found.value], path[1..], f);
        }
    }
  }

  /** Reading `p + q` continues from the value `p` leads to. */
  lemma {:induction false} ReadConcat(d: Json, p: Path, q: Path, x: Json)
    requires |p| > 0 && |q| > 0
    requires Read(d, p) == Success(At(x))
    ensures Read(d, p + q) == Read(x, q)
    decreases |p|
  {
    assert (p + q)[0] == p[0];
    if |p| > 1 {
      assert (p + q)[1..] == p[1..] + q;
      match p[0]
      case Key(k) =>
        ReadConcat(GetOrDefault(d.fields, k, Empty), p[1..], q, x);
      case _ =>
        var i := FindLast(d.items, p[0], |d.items|).value.value;
        ReadConcat(d.items[i], p[1..], q, x);
    } else {
      assert (p + q)[1..] == q;
    }
  }

  /** A final key segment stores `f(d.get(key))` under the key
      (experiment.py:153); the other keys are the frame of `UpdateIn`. */
  lemma LastKeySetsValue(m: map<string, Json>, k: string, f: Transform)
    ensures UpdateIn(Obj(m), [Key(k)], f).Success? <==> f(Get(m, k)).Success?
    ensures UpdateIn(Obj(m), [Key(k)], f).Success? ==>
      UpdateIn(Obj(m), [Key(k)], f).value == Obj(m[k := f(Get(m, k)).value])
  {
  }

  /** A missing intermediate key is created as `{}` and the update continues
      inside it (experiment.py:162-164; doctest experiment.py:126-128). */
  lemma MissingKeyCreatesMapping(m: map<string, Json>, k: string, rest: Path, f: Transform)
    requires k !in m && |rest| > 0
    ensures UpdateIn(Obj(m), [Key(k)] + rest, f).Success? <==> UpdateIn(Empty, rest, f).Success?
    ensures UpdateIn(Obj(m), [Key(k)] + rest, f).Success? ==>
      UpdateIn(Obj(m), [Key(k)] + rest, f).value == Obj(m[k := UpdateIn(Empty, rest, f).value])
  {
    assert ([Key(k)] + rest)[1..] == rest;
  }

  /** A final predicate segment replaces only the last matching element;
      every other element, earlier matches included, is untouched
      (experiment.py:148-151; doctest experiment.py:140-143). */
  lemma LastPredicateReplacesLastMatch(xs: seq<Json>, s: Segment, f: Transform)
    requires !s.Key?
    requires UpdateIn(Arr(xs), [s], f).Success?
    ensures var r := UpdateIn(Arr(xs), [s], f).value.items;
      (Unmatched(xs, s, 0, |xs|) && r == xs) ||
      (exists i: nat :: IsLastMatch(xs, s, i) && f(xs[i]).Success? && r == xs[i := f(xs[i]).value])
  {
    var found := FindLast(xs, s, |xs|).value;
    if found.Some? {
      assert IsLastMatch(xs, s, found.value);
    }
  }

  /** An intermediate predicate segment descends into exactly one element,
      the last match, and stops (experiment.py:157-160). */
  lemma InnerPredicateDescendsOnce(xs: seq<Json>, s: Segment, rest: Path, f: Transform)
    requires !s.Key? && |rest| > 0
    requires UpdateIn(Arr(xs), [s] + rest, f).Success?
    ensures var r := UpdateIn(Arr(xs), [s] + rest, f).value.items;
      (Unmatched(xs, s, 0, |xs|) && r == xs) ||
      (exists i: nat :: IsLastMatch(xs, s, i) && UpdateIn(xs[i], rest, f).Success? &&
                   r == xs[i := UpdateIn(xs[i], rest, f).value])
  {
    assert ([s] + rest)[0] == s && ([s] + rest)[1..] == rest;
    var found := FindLast(xs, s, |xs|).value;
    if found.Some? {
      assert IsLastMatch(xs, s, found.value);
    }
  }
}

=== FILE: services.dfy ===
/** The two document helpers of app/services.py: the nested `lookup` and
    `transform_layers`, which turns a model's list of named layers into a
    mapping from name to layer. */
module Services {
  import opened Wrappers
  import opened Documents
  import opened Paths
  import opened Hashing

  /** `lookup(d, key, *keys)` (services.py:14-17): an intermediate key that
      is missing reads as `{}`, so the lookup ends in `None` instead of
      raising; `.get` on anything but a mapping raises. */
  function Lookup(d: Json, key: string, keys: seq<string>): (r: Outcome<Json>)
    ensures !d.Obj? ==> r == Failure(NotAMapping)
    ensures r.Failure? ==> r.error == NotAMapping
    ensures d == Empty ==> r == Success(Null)
    ensures d.Obj? && key !in d.fields ==> r == Success(Null)
    decreases |keys|
  {
    if !d.Obj? then Failure(NotAMapping)
    else if |keys| > 0 then Lookup(GetOrDefault(d.fields, key, Empty), keys[0], keys[1..])
    else Success(Get(d.fields, key))
  }

  /** The path of key segments `[key] + keys`. */
  function KeyPath(key: string, keys: seq<string>): (p: Path)
    ensures |p| == |keys| + 1 && p[0] == Key(key)
    ensures forall i :: 0 <= i < |keys| ==> p[i + 1] == Key(keys[i])
  {
    [Key(key)] + seq(|keys|, i requires 0 <= i < |keys| => Key(keys[i]))
  }

  /** `lookup` reads exactly what `update_in` updates along a path of keys:
      both descend through `d.get(key, {})`, and a final key that is absent
      reads as `None`. */
  lemma {:induction false} LookupReadsKeyPath(d: Json, key: string, keys: seq<string>)
    ensures Read(d, KeyPath(key, keys)).Success? <==> Lookup(d, key, keys).Success?
    ensures Lookup(d, key, keys).Success? ==>
      !Read(d, KeyPath(key, keys)).value.NoMatch? &&
      Lookup(d, key, keys).value == Current(Read(d, KeyPath(key, keys)).value)
    decreases |keys|
  {
    if d.Obj? && |keys| > 0 {
      var p := KeyPath(key, keys);
      assert p[1..] == KeyPath(keys[0], keys[1..]);
      LookupReadsKeyPath(GetOrDefault(d.fields, key, Empty), keys[0], keys[1..]);
    }
  }

  /** Looking up a key path after `update_in` on it gives what the update
      function made of the value looked up before. */
  lemma LookupAfterUpdate(d: Json, key: string, keys: seq<string>, f: Transform)
    requires UpdateIn(d, KeyPath(key, keys), f).Success?
    ensures Lookup(d, key, keys).Success? && f(Lookup(d, key, keys).value).Success?
    ensures Lookup(UpdateIn(d, KeyPath(key, keys), f).value, key, keys) ==
      Success(f(Lookup(d, key, keys).value).value)
  {
    var p := KeyPath(key, keys);
    assert Stable(p);
    UpdateThenRead(d, p, f);
    LookupReadsKeyPath(d, key, keys);
    LookupReadsKeyPath(UpdateIn(d, p, f).value, key, keys);
  }

  /** The name of a layer, when it is a mapping with a string "name". */
  function NameOf(l: Json): Option<string> {
    if l.Obj? && "name" in l.fields && l.fields["name"].Str? then Some(l.fields["name"].s) else None
  }

  /** A layer with its "name" field deleted. */
  function Strip(l: Json): Json
    requires l.Obj?
  {
    Obj(l.fields - {"name"})
  }

  /** What `named_layers` (services.py:34-39) does with one element of the
      layers: `'name' in l` is key membership on a mapping, substring search
      on a string and element search on a list; a named mapping yields its
      entry, anything else that passes the test raises at `l['name']`, and
      a scalar other than a string raises at the `in` test. */
  function NamedLayer(l: Json): (r: Outcome<Option<(string, Json)>>)
    ensures r.Success? && r.value.Some? <==> NameOf(l).Some?
    ensures r.Success? && r.value.Some? ==> r.value.value == (NameOf(l).value, Strip(l))
    ensures l.Obj? && "name" !in l.fields ==> r == Success(None)
  {
    match l
    case Obj(m) =>
      if "name" !in m then Success(None)
      else if m["name"].Str? then Success(Some((m["name"].s, Strip(l))))
      else if Hashable(m["name"]) then Failure(NonStringName)
      else Failure(Unhashable)
    case Str(s) => if Contains(s, "name") then Failure(NotAMapping) else Success(None)
    case Arr(xs) => if Str("name") in xs then Failure(NotAMapping) else Success(None)
    case _ => Failure(NotIterable)
  }

  /** The entries `named_layers` yields, in order; the first element that
      raises ends the iteration. */
  function NamedLayers(xs: seq<Json>): (r: Outcome<seq<(string, Json)>>)
    ensures r.Success? <==> forall i :: 0 <= i < |xs| ==> NamedLayer(xs[i]).Success?
    ensures r.Failure? ==> exists i :: 0 <= i < |xs| && NamedLayer(xs[i]) == Failure(r.error) &&
                                      (forall j :: 0 <= j < i ==> NamedLayer(xs[j]).Success?)
    decreases |xs|
  {
    if |xs| == 0 then Success([])
    else
      var init := xs[..|xs| - 1];
      var entries :- NamedLayers(init);
      var e :- NamedLayer(xs[|xs| - 1]);
      Success(if e.Some? then entries + [e.value] else entries)
  }

  /** `i` is the last layer named `name`. */
  predicate LastNamed(xs: seq<Json>, i: nat, name: string) {
    i < |xs| && NameOf(xs[i]) == Some(name) &&
    forall j :: i < j < |xs| ==> NameOf(xs[j]) != Some(name)
  }

  /** The keys of `dict(named_layers(layers))` are exactly the layers'
      names. */
  lemma {:induction false} LayerTableKeys(xs: seq<Json>)
    requires NamedLayers(xs).Success?
    ensures forall name :: name in DictOf(NamedLayers(xs).value) <==>
      exists i :: 0 <= i < |xs| && NameOf(xs[i]) == Some(name)
    decreases |xs|
  {
    if |xs| > 0 {
      var init := xs[..|xs| - 1];
      var last := xs[|xs| - 1];
      LayerTableKeys(init);
      var entries := NamedLayers(init).value;
      if NameOf(last).Some? {
        var e := NamedLayer(last).value.value;
        assert (entries + [e])[..|entries|] == entries;
        assert DictOf(entries + [e]) == DictOf(entries)[e.0 := e.1];
      }
      forall name | exists i :: 0 <= i < |xs| && NameOf(xs[i]) == Some(name)
        ensures name in DictOf(NamedLayers(xs).value)
      {
        var i :| 0 <= i < |xs| && NameOf(xs[i]) == Some(name);
        if i < |xs| - 1 {
          assert init[i] == xs[i];
        }
      }
    }
  }

  /** In `dict(named_layers(layers))` the last layer with a name gives that
      name's value, without its "name" field. */
  lemma {:induction false} LayerTableLastWins(xs: seq<Json>)
    requires NamedLayers(xs).Success?
    ensures forall i: nat, name :: LastNamed(xs, i, name) ==>
      name in DictOf(NamedLayers(xs).value) && DictOf(NamedLayers(xs).value)[name] == Strip(xs[i])
    decreases |xs|
  {
    if |xs| > 0 {
      var init := xs[..|xs| - 1];
      var last := xs[|xs| - 1];
      LayerTableLastWins(init);
      var entries := NamedLayers(init).value;
      forall i: nat, name | LastNamed(xs, i, name) && i < |xs| - 1
        ensures LastNamed(init, i, name)
      {
        assert forall j :: i < j < |init| ==> init[j] == xs[j];
      }
      if NameOf(last).Some? {
        var e := NamedLayer(last).value.value;
        assert (entries + [e])[..|entries|] == entries;
        assert DictOf(entries + [e]) == DictOf(entries)[e.0 := e.1];
      }
    }
  }

  /** `dict(named_layers(layers))`: a name is a key exactly when some layer
      carries it, and it maps to the last layer so named, without its
      "name" field. */
  lemma LayerTable(xs: seq<Json>)
    requires NamedLayers(xs).Success?
    ensures forall name :: name in DictOf(NamedLayers(xs).value) <==>
      exists i :: 0 <= i < |xs| && NameOf(xs[i]) == Some(name)
    ensures forall i: nat, name :: LastNamed(xs, i, name) ==>
      name in DictOf(NamedLayers(xs).value) && DictOf(NamedLayers(xs).value)[name] == Strip(xs[i])
  {
    LayerTableKeys(xs);
    LayerTableLastWins(xs);
  }

  /** The mapping `dict(named_layers(layers))` builds from whatever
      `model['layers']` holds. Iterating a mapping visits its keys and a
      string its characters, which are tested with substring search; no
      one-character string contains "name". */
  function LayerMapping(layers: Json): (r: Outcome<map<string, Json>>)
    ensures layers.Arr? ==>
      (r.Success? <==> forall i :: 0 <= i < |layers.items| ==> NamedLayer(layers.items[i]).Success?)
    ensures layers.Arr? && r.Success? ==> forall name :: name in r.value <==>
      exists i :: 0 <= i < |layers.items| && NameOf(layers.items[i]) == Some(name)
    ensures !layers.Arr? && r.Success? ==> r.value == map[]
    ensures Hashable(layers) && !layers.Str? ==> r == Failure(NotIterable)
  {
    match layers
    case Arr(xs) =>
      var entries :- NamedLayers(xs);
      LayerTable(xs);
      Success(DictOf(entries))
    case Obj(m) =>
      if exists k :: k in m && Contains(k, "name") then Failure(NotAMapping) else Success(map[])
    case Str(_) => Success(map[])
    case _ => Failure(NotIterable)
  }

  /** `transform_layers(model)` (services.py:33-44): without a "layers" key
      the model comes back unchanged; otherwise only "layers" changes, to
      the mapping from name to layer. */
  function TransformLayers(model: map<string, Json>): (r: Outcome<map<string, Json>>)
    ensures "layers" !in model ==> r == Success(model)
    ensures r.Success? ==> r.value.Keys == model.Keys
    ensures r.Success? ==> forall k :: k in model && k != "layers" ==> r.value[k] == model[k]
    ensures r.Success? && "layers" in model ==> r.value["layers"].Obj?
    ensures "layers" in model && model["layers"].Arr? ==>
      (r.Success? <==> forall i :: 0 <= i < |model["layers"].items| ==> NamedLayer(model["layers"].items[i]).Success?)
  {
    if "layers" !in model then Success(model)
    else
      var table :- LayerMapping(model["layers"]);
      Success(model["layers" := Obj(table)])
  }

  /** For a list of layers, the result holds one entry per layer name, the
      last layer of that name, without its "name" field; unnamed mappings
      are dropped. */
  lemma LayersKeyedByName(model: map<string, Json>, name: string)
    requires "layers" in model && model["layers"].Arr?
    requires TransformLayers(model).Success?
    ensures var xs := model["layers"].items;
      var table := TransformLayers(model).value["layers"].fields;
      (name in table <==> exists i :: 0 <= i < |xs| && NameOf(xs[i]) == Some(name)) &&
      forall i: nat :: LastNamed(xs, i, name) ==> name in table && table[name] == Strip(xs[i])
  {
    LayerTable(model["layers"].items);
  }
}

=== FILE: sessions.dfy ===
/** The result-session logic of `Experiment.Model` (experiment.py:352-464).
    The store is abstracted to the one experiment document the handle writes
    to; every `db.update(op, self.cond)` becomes a pure update of that
    document. Session metadata (git commit, user, platform, clock) is an
    opaque value the caller supplies. */
module Sessions {
  import opened Wrappers
  import opened Documents
  import opened Paths
  import opened Mutators

  /** The `Model` handle: its model id and the session marker
      `_session_params`, which is `None` (here `Null`) outside a session. */
  datatype Handle = Handle(modelId: Json, sessionParams: Json)

  /** A handle together with the experiment document it writes to. */
  datatype World = World(handle: Handle, doc: Json)

  /** The world after a call and the exception the call raised, if any. */
  datatype Step = Step(world: World, raised: Option<Error>)

  /** `["models", model_pred(model_id)]`. */
  function ModelPath(mid: Json): Path {
    [Key("models"), Where("modelId", mid)]
  }

  /** `["models", model_pred(model_id), "sessions"]`. */
  function SessionsPath(mid: Json): Path {
    ModelPath(mid) + [Key("sessions")]
  }

  /** `["models", model_pred(model_id), "sessions", params_pred(params), leaf]`. */
  function SessionFieldPath(mid: Json, params: Json, leaf: string): Path {
    SessionsPath(mid) + [Where("params", params), Key(leaf)]
  }

  /** `self.cond`: the experiment's `models` list holds a dict whose
      `modelId` is the handle's (TinyDB's `any` treats an element it cannot
      subscript as a non-match). */
  predicate HasModel(doc: Json, mid: Json)
    ensures HasModel(doc, mid) ==>
      doc.Obj? && "models" in doc.fields && doc.fields["models"].Arr? &&
      var ms := doc.fields["models"].items;
      FindLast(ms, Where("modelId", mid), |ms|) != Success(None)
  {
    doc.Obj? && "models" in doc.fields && doc.fields["models"].Arr? &&
    exists m :: m in doc.fields["models"].items && m.Obj? && "modelId" in m.fields && m.fields["modelId"] == mid
  }

  /** `db.update(op, self.cond)` on the experiment document: the update runs
      only when the condition holds, otherwise the document is untouched. */
  function UpdateWhere(doc: Json, mid: Json, path: Path, f: Transform): (r: Outcome<Json>)
    ensures !HasModel(doc, mid) ==> r == Success(doc)
  {
    if HasModel(doc, mid) then UpdateIn(doc, path, f) else Success(doc)
  }

  /** Runs one conditioned update for the handle and records its outcome. */
  function Write(w: World, path: Path, f: Transform): (s: Step)
    ensures s.world.handle == w.handle
    ensures s.raised.Some? ==> s.world == w
  {
    match UpdateWhere(w.doc, w.handle.modelId, path, f)
    case Success(d) => Step(World(w.handle, d), None)
    case Failure(e) => Step(w, Some(e))
  }

  /** The `{"modelId": ..., "modelConfig": ...}` record the constructor adds. */
  function ModelRecord(mid: Json, config: Json): Json {
    Obj(map["modelId" := mid, "modelConfig" := config])
  }

  /** `Model.__init__` (experiment.py:353-363): the model record is appended
      to `models` unless a model with that id already exists. */
  function NewModel(doc: Json, mid: Json, config: Json): (r: Outcome<World>)
    ensures r.Success? ==> r.value.handle == Handle(mid, Null) && HasModel(r.value.doc, mid)
    ensures HasModel(doc, mid) ==> r == Success(World(Handle(mid, Null), doc))
    ensures r.Failure? <==> !HasModel(doc, mid) && (!doc.Obj? || (Truthy(Get(doc.fields, "models")) && !Get(doc.fields, "models").Arr?))
    ensures r.Success? && !HasModel(doc, mid) ==>
      doc.Obj? &&
      var ms := Get(doc.fields, "models");
      r.value.doc == Obj(doc.fields["models" := Arr((if ms.Arr? then ms.items else []) + [ModelRecord(mid, config)])])
  {
    if HasModel(doc, mid) then Success(World(Handle(mid, Null), doc))
    else
      ExtendInAtKey(doc, "models", ModelRecord(mid, config));
      var d :- ExtendIn(doc, [Key("models")], ModelRecord(mid, config));
      var models := d.fields["models"].items;
      assert models == models[..|models| - 1] + [ModelRecord(mid, config)];
      Success(World(Handle(mid, Null), d))
  }

  /** What `for x in v` walks over, as far as the callers here can tell: a
      list's elements; nothing for an empty string or dict. A non-empty
      string yields non-empty strings and a dict its keys; every caller
      subscripts a truthy element with a string and so raises. Only the
      falsy key `""` can be stepped over, so a dict whose one key is `""`
      walks as `[""]` and any other non-empty dict raises. A scalar is not
      iterable. */
  function Elements(v: Json): (r: Outcome<seq<Json>>)
    ensures v.Arr? ==> r == Success(v.items)
    ensures r.Success? ==> forall x :: x in r.value && !v.Arr? ==> x == Str("")
    ensures Hashable(v) && !v.Str? ==> r == Failure(NotIterable)
  {
    match v
    case Arr(xs) => Success(xs)
    case Str(s) => if s == "" then Success([]) else Failure(NotAMapping)
    case Obj(m) =>
      if m == map[] then Success([])
      else if m.Keys == {""} then Success([Str("")])
      else Failure(NotAMapping)
    case _ => Failure(NotIterable)
  }

  /** A model the generator of `_check_params` steps over without raising. */
  predicate SkippedModel(m: Json, mid: Json) {
    !Truthy(m) || (m.Obj? && "modelId" in m.fields && m.fields["modelId"] != mid)
  }

  /** `next(m for m in ms if m if m["modelId"] == model_id)` from index `lo`:
      the FIRST truthy model with that id. */
  function FirstModel(ms: seq<Json>, mid: Json, lo: nat): (r: Outcome<nat>)
    requires lo <= |ms|
    ensures r.Success? ==>
      lo <= r.value < |ms| && ms[r.value].Obj? && "modelId" in ms[r.value].fields &&
      ms[r.value].fields["modelId"] == mid &&
      forall j :: lo <= j < r.value ==> SkippedModel(ms[j], mid)
    ensures r == Failure(ModelNotFound) <==> forall j :: lo <= j < |ms| ==> SkippedModel(ms[j], mid)
    ensures r.Failure? ==> r.error in {ModelNotFound, NotAMapping, MissingField("modelId")}
    decreases |ms| - lo
  {
    if lo == |ms| then Failure(ModelNotFound)
    else
      var m := ms[lo];
      if !Truthy(m) then FirstModel(ms, mid, lo + 1)
      else if !m.Obj? then Failure(NotAMapping)
      else if "modelId" !in m.fields then Failure(MissingField("modelId"))
      else if m.fields["modelId"] == mid then Success(lo)
      else FirstModel(ms, mid, lo + 1)
  }

  /** A session record whose params are readable and differ from `params`. */
  predicate OtherParams(s: Json, params: Json) {
    s.Obj? && "params" in s.fields && s.fields["params"] != params
  }

  /** A session record with a `params` entry. */
  predicate HasParams(s: Json) {
    s.Obj? && "params" in s.fields
  }

  /** The loop of `_check_params` over the sessions from index `lo`: raise
      on the first session whose params equal the new ones. */
  function ScanSessions(ss: seq<Json>, params: Json, lo: nat): (r: Outcome<()>)
    requires lo <= |ss|
    ensures r.Success? <==> forall j :: lo <= j < |ss| ==> OtherParams(ss[j], params)
    ensures (forall j :: lo <= j < |ss| ==> HasParams(ss[j])) ==>
      r.Success? || r == Failure(ExistingModelParams)
    decreases |ss| - lo
  {
    if lo == |ss| then Success(())
    else
      var s := ss[lo];
      if !s.Obj? then Failure(NotAMapping)
      else if "params" !in s.fields then Failure(MissingField("params"))
      else if s.fields["params"] == params then Failure(ExistingModelParams)
      else ScanSessions(ss, params, lo + 1)
  }

  /** `_check_params` (experiment.py:372-377). It gets past `next(...)`
      only when the model exists, so passing or rejecting the params both
      imply the handle's condition. */
  function CheckParams(doc: Json, mid: Json, params: Json): (r: Outcome<()>)
    ensures r.Success? || r == Failure(ExistingModelParams) ==> HasModel(doc, mid)
    ensures !doc.Obj? ==> r == Failure(NotAMapping)
  {
    if !doc.Obj? then Failure(NotAMapping)
    else if "models" !in doc.fields then Failure(MissingField("models"))
    else
      var ms :- Elements(doc.fields["models"]);
      var i :- FirstModel(ms, mid, 0);
      assert ms[i] in ms;
      assert doc.fields["models"].Arr? && ms[i] in doc.fields["models"].items;
      var ss :- Elements(GetOrDefault(ms[i].fields, "sessions", Arr([])));
      ScanSessions(ss, params, 0)
  }

  /** The record `_start_session` appends. */
  function SessionRecord(params: Json, meta: Json): Json {
    Obj(map["params" := params, "meta" := meta])
  }

  /** Entering `with model.session(params, ensure_unique)`
      (experiment.py:430-432 with `_start_session`, 397-401). The check runs
      before anything changes; the marker is set before the write, so it
      stays set when the write raises. */
  function OpenSession(w: World, params: Json, ensureUnique: bool, meta: Json): (s: Step)
    ensures ensureUnique && CheckParams(w.doc, w.handle.modelId, params).Failure? ==>
      s == Step(w, Some(CheckParams(w.doc, w.handle.modelId, params).error))
    ensures s.raised.None? ==> s.world.handle == w.handle.(sessionParams := params)
  {
    var check := if ensureUnique then CheckParams(w.doc, w.handle.modelId, params) else Success(());
    if check.Failure? then Step(w, Some(check.error))
    else
      var marked := World(w.handle.(sessionParams := params), w.doc);
      Write(marked, SessionsPath(w.handle.modelId), Appending(SessionRecord(params, meta)))
  }

  /** `_end_session`: clears the marker. */
  function EndSession(w: World): (r: World)
    ensures r.handle.sessionParams == Null && r.handle.modelId == w.handle.modelId && r.doc == w.doc
  {
    World(w.handle.(sessionParams := Null), w.doc)
  }

  /** The self-contained record `_add_result` appends outside a session. */
  function ResultRecord(params: Json, meta: Json, result: Json): Json {
    Obj(map["params" := params, "meta" := meta, "result" := result])
  }

  /** `add_result(result, params)` (experiment.py:450-456, with
      `_add_result` and `_add_session_result`). Inside a session the result
      joins the last session whose params equal the marker and `params` is
      ignored; outside one it becomes a record of its own. The marker is
      tested for truthiness, so a session entered with empty params counts as
      no session. */
  function AddResult(w: World, result: Json, params: Json, meta: Json): (s: Step)
    ensures !Truthy(params) && !Truthy(w.handle.sessionParams) ==> s == Step(w, Some(ParamsMissing))
    ensures s.world.handle == w.handle
  {
    var h := w.handle;
    if !Truthy(params) && !Truthy(h.sessionParams) then Step(w, Some(ParamsMissing))
    else if !Truthy(h.sessionParams) then
      Write(w, SessionsPath(h.modelId), Appending(ResultRecord(params, meta, result)))
    else
      Write(w, SessionFieldPath(h.modelId, h.sessionParams, "result"), Appending(result))
  }

  /** The epoch entry `add_epoch` stores: the caller's dict with
      `epoch_num`, and a `timestamp` when asked for one. */
  function EpochRecord(epochNum: Json, result: map<string, Json>, timestamp: bool, now: Json): (r: Json)
    ensures r.Obj? && "epoch_num" in r.fields && r.fields["epoch_num"] == epochNum
    ensures timestamp ==> "timestamp" in r.fields && r.fields["timestamp"] == now
    ensures r.fields.Keys == result.Keys + {"epoch_num"} + (if timestamp then {"timestamp"} else {})
    ensures forall k :: k in result && k != "epoch_num" && (timestamp ==> k != "timestamp") ==>
      r.fields[k] == result[k]
  {
    var stamped := result["epoch_num" := epochNum];
    Obj(if timestamp then stamped["timestamp" := now] else stamped)
  }

  /** `add_epoch(epoch_num, result, timestamp)` (experiment.py:458-464):
      raises outside a session; `result.update` raises on a non-dict. */
  function AddEpoch(w: World, epochNum: Json, result: Json, timestamp: bool, now: Json): (s: Step)
    ensures !Truthy(w.handle.sessionParams) ==> s == Step(w, Some(SessionRequired))
    ensures Truthy(w.handle.sessionParams) && !result.Obj? ==> s == Step(w, Some(NotAMapping))
    ensures s.world.handle == w.handle
  {
    var h := w.handle;
    if !Truthy(h.sessionParams) then Step(w, Some(SessionRequired))
    else if !result.Obj? then Step(w, Some(NotAMapping))
    else
      Write(w, SessionFieldPath(h.modelId, h.sessionParams, "result"),
            Appending(EpochRecord(epochNum, result.fields, timestamp, now)))
  }

  /** `add_meta(d)` (experiment.py:436-448): merges `d` into the current
      session's `meta`. */
  function AddMeta(w: World, d: Json): (s: Step)
    ensures !Truthy(w.handle.sessionParams) ==> s == Step(w, Some(SessionRequired))
    ensures Truthy(w.handle.sessionParams) && !d.Obj? ==> s == Step(w, Some(MetaNotDict))
    ensures s.world.handle == w.handle
  {
    var h := w.handle;
    if !Truthy(h.sessionParams) then Step(w, Some(SessionRequired))
    else if !d.Obj? then Step(w, Some(MetaNotDict))
    else Write(w, SessionFieldPath(h.modelId, h.sessionParams, "meta"), Merging(d.fields))
  }

  /** One call a caller makes on the handle. */
  datatype Call =
    | ResultCall(result: Json, params: Json, meta: Json)
    | EpochCall(epochNum: Json, epoch: Json, timestamp: bool, now: Json)
    | MetaCall(d: Json)

  function Exec(w: World, c: Call): Step {
    match c
    case ResultCall(result, params, meta) => AddResult(w, result, params, meta)
    case EpochCall(n, e, ts, now) => AddEpoch(w, n, e, ts, now)
    case MetaCall(d) => AddMeta(w, d)
  }

  /** Runs calls in order; the first one that raises ends the run. */
  function ExecAll(w: World, cs: seq<Call>): (s: Step)
    ensures s.world.handle == w.handle
    decreases |cs|
  {
    if |cs| == 0 then Step(w, None)
    else
      var first := Exec(w, cs[0]);
      if first.raised.Some? then first else ExecAll(first.world, cs[1..])
  }

  /** `with model.session(params, ensure_unique): body` (experiment.py:406-434).
      The generator has no `try`/`finally`, so `_end_session` runs only
      when the body finishes without raising. */
  function RunSession(w: World, params: Json, ensureUnique: bool, meta: Json, body: seq<Call>): (s: Step)
    ensures s.raised.None? ==> s.world.handle == w.handle.(sessionParams := Null)
  {
    var entered := OpenSession(w, params, ensureUnique, meta);
    if entered.raised.Some? then entered
    else
      var run := ExecAll(entered.world, body);
      if run.raised.Some? then run else Step(EndSession(run.world), None)
  }

  /** When the body raises, the session marker is left set. */
  lemma RaisingBodyKeepsMarker(w: World, params: Json, ensureUnique: bool, meta: Json, body: seq<Call>)
    requires OpenSession(w, params, ensureUnique, meta).raised.None?
    requires ExecAll(OpenSession(w, params, ensureUnique, meta).world, body).raised.Some?
    ensures RunSession(w, params, ensureUnique, meta, body).raised.Some?
    ensures RunSession(w, params, ensureUnique, meta, body).world.handle.sessionParams == params
  {
  }

  /** A session entered with params that are falsy (`{}` for one) is not a
      session for `add_epoch`: the marker test is `not self._session_params`. */
  lemma EmptyParamsSessionRefusesEpochs(w: World, ensureUnique: bool, meta: Json, n: Json, e: Json, ts: bool, now: Json)
    requires OpenSession(w, Empty, ensureUnique, meta).raised.None?
    ensures AddEpoch(OpenSession(w, Empty, ensureUnique, meta).world, n, e, ts, now).raised == Some(SessionRequired)
  {
  }

  lemma SessionPathsShape(mid: Json, params: Json, leaf: string)
    ensures SessionsPath(mid) == [Key("models"), Where("modelId", mid), Key("sessions")]
    ensures SessionFieldPath(mid, params, leaf) ==
      [Key("models"), Where("modelId", mid), Key("sessions"), Where("params", params), Key(leaf)]
    ensures Stable(SessionsPath(mid))
    ensures leaf != "params" ==> Stable(SessionFieldPath(mid, params, leaf))
  {
  }

  /** A path through `model_pred` that leads somewhere means the handle's
      condition holds. */
  lemma ReadThroughModelHasModel(doc: Json, mid: Json, rest: Path)
    requires |rest| > 0
    requires Read(doc, ModelPath(mid) + rest).Success?
    requires !Read(doc, ModelPath(mid) + rest).value.NoMatch?
    ensures HasModel(doc, mid)
  {
    var path := ModelPath(mid) + rest;
    assert path[0] == Key("models") && path[1..] == [Where("modelId", mid)] + rest;
    var child := GetOrDefault(doc.fields, "models", Empty);
    assert Read(doc, path) == Read(child, path[1..]);
    var found := FindLast(child.items, Where("modelId", mid), |child.items|).value;
    var m := child.items[found.value];
    assert m in child.items;
  }

  /** Under the handle's condition the model predicate matches, so the read
      of the sessions list does not end at an unmatched predicate. */
  lemma HasModelReachesSessions(doc: Json, mid: Json)
    requires HasModel(doc, mid)
    requires Read(doc, SessionsPath(mid)).Success?
    ensures !Read(doc, SessionsPath(mid)).value.NoMatch?
  {
    var path := SessionsPath(mid);
    SessionPathsShape(mid, Null, "result");
    var ms := doc.fields["models"].items;
    assert path[1..] == [Where("modelId", mid), Key("sessions")];
    assert Read(doc, path) == Read(doc.fields["models"], path[1..]);
    var m :| m in ms && m.Obj? && "modelId" in m.fields && m.fields["modelId"] == mid;
    var j :| 0 <= j < |ms| && ms[j] == m;
    assert Test(Where("modelId", mid), ms[j]) == Success(true);
    assert FindLast(ms, Where("modelId", mid), |ms|).Success?;
  }

  /** The results collected so far in the session with params `p`: none
      yet (the `result` key is absent), or the list stored there. */
  predicate ResultsAre(doc: Json, mid: Json, p: Json, rs: seq<Json>) {
    || (Read(doc, SessionFieldPath(mid, p, "result")) == Success(Absent) && rs == [])
    || Read(doc, SessionFieldPath(mid, p, "result")) == Success(At(Arr(rs)))
  }

  /** Opening a session appends a record with the session's params, so the
      session's results start out empty. */
  lemma OpenedSessionStartsEmpty(w: World, params: Json, ensureUnique: bool, meta: Json)
    requires HasModel(w.doc, w.handle.modelId)
    requires OpenSession(w, params, ensureUnique, meta).raised.None?
    ensures ResultsAre(OpenSession(w, params, ensureUnique, meta).world.doc, w.handle.modelId, params, [])
  {
    var mid := w.handle.modelId;
    var rec := SessionRecord(params, meta);
    var d' := OpenSession(w, params, ensureUnique, meta).world.doc;
    SessionPathsShape(mid, params, "result");
    assert UpdateIn(w.doc, SessionsPath(mid), Appending(rec)) == Success(d');
    UpdateThenRead(w.doc, SessionsPath(mid), Appending(rec));
    HasModelReachesSessions(w.doc, mid);
    var sessions := AppendOrInit(Current(Read(w.doc, SessionsPath(mid)).value), rec).value;
    var xs := sessions.items;
    assert xs[|xs| - 1] == rec;
    ReadConcat(d', SessionsPath(mid), [Where("params", params), Key("result")], sessions);
    FindLastFindsLastMatch(xs, Where("params", params), |xs| - 1, |xs|);
    assert Read(d', SessionFieldPath(mid, params, "result")) == Read(rec, [Key("result")]);
  }

  /** Appending one item to the current session's results. */
  lemma AppendToSession(w: World, item: Json, rs: seq<Json>)
    requires Truthy(w.handle.sessionParams)
    requires ResultsAre(w.doc, w.handle.modelId, w.handle.sessionParams, rs)
    ensures var path := SessionFieldPath(w.handle.modelId, w.handle.sessionParams, "result");
      var s := Write(w, path, Appending(item));
      s.raised.None? && ResultsAre(s.world.doc, w.handle.modelId, w.handle.sessionParams, rs + [item])
  {
    var mid, p := w.handle.modelId, w.handle.sessionParams;
    var path := SessionFieldPath(mid, p, "result");
    SessionPathsShape(mid, p, "result");
    assert path == ModelPath(mid) + [Key("sessions"), Where("params", p), Key("result")];
    ReadThroughModelHasModel(w.doc, mid, [Key("sessions"), Where("params", p), Key("result")]);
    UpdateSucceedsWhereReadDoes(w.doc, path, Appending(item));
    UpdateThenRead(w.doc, path, Appending(item));
    var r := AppendOrInit(Current(Read(w.doc, path).value), item).value;
    assert r.items == r.items[..|r.items| - 1] + [item];
  }

  /** `add_epoch` inside a session appends the stamped epoch to that
      session's results. */
  lemma AddEpochAppends(w: World, n: Json, e: Json, ts: bool, now: Json, rs: seq<Json>)
    requires Truthy(w.handle.sessionParams) && e.Obj?
    requires ResultsAre(w.doc, w.handle.modelId, w.handle.sessionParams, rs)
    ensures AddEpoch(w, n, e, ts, now).raised.None?
    ensures ResultsAre(AddEpoch(w, n, e, ts, now).world.doc, w.handle.modelId, w.handle.sessionParams,
                       rs + [EpochRecord(n, e.fields, ts, now)])
  {
    AppendToSession(w, EpochRecord(n, e.fields, ts, now), rs);
  }

  /** `add_result` inside a session appends the result, as it is, to that
      session's results; the `params` argument plays no part. */
  lemma AddResultInSessionAppends(w: World, result: Json, params: Json, meta: Json, rs: seq<Json>)
    requires Truthy(w.handle.sessionParams)
    requires ResultsAre(w.doc, w.handle.modelId, w.handle.sessionParams, rs)
    ensures AddResult(w, result, params, meta).raised.None?
    ensures ResultsAre(AddResult(w, result, params, meta).world.doc, w.handle.modelId, w.handle.sessionParams,
                       rs + [result])
  {
    AppendToSession(w, result, rs);
  }

  /** Every call is an `add_epoch` call with a dict. */
  predicate AllEpochCalls(cs: seq<Call>) {
    forall i :: 0 <= i < |cs| ==> cs[i].EpochCall? && cs[i].epoch.Obj?
  }

  /** The entries a run of epoch calls stores, in call order. */
  function Stamped(cs: seq<Call>): (r: seq<Json>)
    requires AllEpochCalls(cs)
    ensures |r| == |cs|
    ensures forall i :: 0 <= i < |cs| ==>
      r[i].Obj? && "epoch_num" in r[i].fields && r[i].fields["epoch_num"] == cs[i].epochNum
    decreases |cs|
  {
    if |cs| == 0 then []
    else
      [EpochRecord(cs[0].epochNum, cs[0].epoch.fields, cs[0].timestamp, cs[0].now)] + Stamped(cs[1..])
  }

  /** N calls of `add_epoch` in one session store N entries, tagged with
      their epoch numbers in call order, after what was there before. */
  lemma {:induction false} EpochsAccumulateInOrder(w: World, cs: seq<Call>, rs: seq<Json>)
    requires Truthy(w.handle.sessionParams)
    requires AllEpochCalls(cs)
    requires ResultsAre(w.doc, w.handle.modelId, w.handle.sessionParams, rs)
    ensures ExecAll(w, cs).raised.None?
    ensures ResultsAre(ExecAll(w, cs).world.doc, w.handle.modelId, w.handle.sessionParams, rs + Stamped(cs))
    decreases |cs|
  {
    if |cs| == 0 {
      assert rs + Stamped(cs) == rs;
    } else {
      var rec := EpochStep(w, cs[0], rs);
      var next := Exec(w, cs[0]).world;
      EpochsAccumulateInOrder(next, cs[1..], rs + [rec]);
      StampedCons(cs, rs, rec);
      ExecAllCons(w, cs);
    }
  }

  lemma ExecAllCons(w: World, cs: seq<Call>)
    requires |cs| > 0 && Exec(w, cs[0]).raised.None?
    ensures ExecAll(w, cs) == ExecAll(Exec(w, cs[0]).world, cs[1..])
  {
  }

  lemma StampedCons(cs: seq<Call>, rs: seq<Json>, rec: Json)
    requires |cs| > 0 && AllEpochCalls(cs)
    requires rec == Stamped([cs[0]])[0]
    ensures AllEpochCalls(cs[1..])
    ensures rs + Stamped(cs) == rs + [rec] + Stamped(cs[1..])
  {
    assert [cs[0]][1..] == [];
    assert Stamped(cs) == [rec] + Stamped(cs[1..]);
  }

  lemma EpochStep(w: World, c: Call, rs: seq<Json>) returns (rec: Json)
    requires Truthy(w.handle.sessionParams)
    requires c.EpochCall? && c.epoch.Obj?
    requires ResultsAre(w.doc, w.handle.modelId, w.handle.sessionParams, rs)
    ensures rec == Stamped([c])[0]
    ensures Exec(w, c).raised.None? && Exec(w, c).world.handle == w.handle
    ensures ResultsAre(Exec(w, c).world.doc, w.handle.modelId, w.handle.sessionParams, rs + [rec])
  {
    assert [c][1..] == [];
    rec := EpochRecord(c.epochNum, c.epoch.fields, c.timestamp, c.now);
    assert Stamped([c]) == [rec];
    AddEpochAppends(w, c.epochNum, c.epoch, c.timestamp, c.now, rs);
  }

  /** A whole session of epoch calls: it closes cleanly, the marker is
      cleared, and the session's results are exactly the stamped epochs in
      call order. */
  lemma SessionRecordsEpochs(w: World, params: Json, ensureUnique: bool, meta: Json, cs: seq<Call>)
    requires HasModel(w.doc, w.handle.modelId) && Truthy(params)
    requires OpenSession(w, params, ensureUnique, meta).raised.None?
    requires AllEpochCalls(cs)
    ensures var s := RunSession(w, params, ensureUnique, meta, cs);
      s.raised.None? && s.world.handle.sessionParams == Null &&
      ResultsAre(s.world.doc, w.handle.modelId, params, Stamped(cs))
  {
    OpenedSessionStartsEmpty(w, params, ensureUnique, meta);
    var entered := OpenSession(w, params, ensureUnique, meta).world;
    EpochsAccumulateInOrder(entered, cs, []);
    assert [] + Stamped(cs) == Stamped(cs);
  }

  /** The session records of a model (`model.get("sessions", [])` when it
      is a list). */
  function SessionList(m: Json): seq<Json>
    requires m.Obj?
  {
    if "sessions" in m.fields && m.fields["sessions"].Arr? then m.fields["sessions"].items else []
  }

  /** An experiment document in the shape the handle maintains: every model
      record carries a `modelId`, exactly the one at index `i` carries the
      handle's, and its sessions (if any) are a list of records with params. */
  predicate WellFormed(doc: Json, mid: Json, i: nat) {
    && doc.Obj? && "models" in doc.fields && doc.fields["models"].Arr?
    && var ms := doc.fields["models"].items;
    && i < |ms|
    && (forall j :: 0 <= j < |ms| ==> ms[j].Obj? && "modelId" in ms[j].fields)
    && (forall j :: 0 <= j < |ms| ==> (ms[j].fields["modelId"] == mid <==> j == i))
    && ("sessions" in ms[i].fields ==> ms[i].fields["sessions"].Arr?)
    && (forall s :: s in SessionList(ms[i]) ==> HasParams(s))
  }

  lemma {:induction false} FirstModelFinds(ms: seq<Json>, mid: Json, lo: nat, i: nat)
    requires lo <= i < |ms|
    requires forall j :: lo <= j < i ==> SkippedModel(ms[j], mid)
    requires ms[i].Obj? && "modelId" in ms[i].fields && ms[i].fields["modelId"] == mid
    ensures FirstModel(ms, mid, lo) == Success(i)
    decreases i - lo
  {
    if lo < i {
      FirstModelFinds(ms, mid, lo + 1, i);
    }
  }

  /** With uniqueness on, opening a session raises exactly when the model
      already has a session whose params equal the new ones
      (experiment.py:372-377, 430-431); otherwise the check passes. */
  lemma CheckParamsRejectsDuplicates(doc: Json, mid: Json, i: nat, params: Json)
    requires WellFormed(doc, mid, i)
    ensures var ss := SessionList(doc.fields["models"].items[i]);
      CheckParams(doc, mid, params) == Failure(ExistingModelParams) <==>
        exists s :: s in ss && s.fields["params"] == params
    ensures CheckParams(doc, mid, params).Success? || CheckParams(doc, mid, params) == Failure(ExistingModelParams)
  {
    var ms := doc.fields["models"].items;
    assert ms[i].fields != map[];
    FirstModelFinds(ms, mid, 0, i);
    var ss := SessionList(ms[i]);
    assert Elements(GetOrDefault(ms[i].fields, "sessions", Arr([]))) == Success(ss);
    assert CheckParams(doc, mid, params) == ScanSessions(ss, params, 0);
    assert (forall j :: 0 <= j < |ss| ==> OtherParams(ss[j], params)) <==>
           (forall s :: s in ss ==> OtherParams(s, params));
  }

  /** A failed uniqueness check leaves the document and the handle as they
      were: the check runs before anything is written. */
  lemma DuplicateOpenChangesNothing(w: World, i: nat, params: Json, meta: Json)
    requires WellFormed(w.doc, w.handle.modelId, i)
    requires exists s :: s in SessionList(w.doc.fields["models"].items[i]) && s.fields["params"] == params
    ensures OpenSession(w, params, true, meta) == Step(w, Some(ExistingModelParams))
  {
    CheckParamsRejectsDuplicates(w.doc, w.handle.modelId, i, params);
  }

  /** The models of a document when `models` is a list, and `[]` otherwise. */
  function ModelList(doc: Json): seq<Json>
    requires doc.Obj?
  {
    var ms := Get(doc.fields, "models");
    if ms.Arr? then ms.items else []
  }

  /** Models that all carry another id leave the handle's model absent. */
  lemma OtherIdsNoModel(doc: Json, mid: Json)
    requires doc.Obj?
    requires forall j :: 0 <= j < |ModelList(doc)| ==>
      ModelList(doc)[j].Obj? && "modelId" in ModelList(doc)[j].fields && ModelList(doc)[j].fields["modelId"] != mid
    ensures !HasModel(doc, mid)
  {
    forall m | m in ModelList(doc)
      ensures !(m.Obj? && "modelId" in m.fields && m.fields["modelId"] == mid)
    {
      var j :| 0 <= j < |ModelList(doc)| && ModelList(doc)[j] == m;
    }
  }

  /** The constructor establishes the shape: starting from models that all
      carry an id other than the handle's, the new model sits at the end of
      the list and has no sessions (experiment.py:360-363). */
  lemma NewModelWellFormed(doc: Json, mid: Json, config: Json)
    requires doc.Obj? && (!Truthy(Get(doc.fields, "models")) || Get(doc.fields, "models").Arr?)
    requires forall j :: 0 <= j < |ModelList(doc)| ==>
      ModelList(doc)[j].Obj? && "modelId" in ModelList(doc)[j].fields && ModelList(doc)[j].fields["modelId"] != mid
    ensures NewModel(doc, mid, config).Success?
    ensures WellFormed(NewModel(doc, mid, config).value.doc, mid, |ModelList(doc)|)
  {
    OtherIdsNoModel(doc, mid);
    var r := NewModel(doc, mid, config);
    assert r.Success?;
    var ms := ModelList(doc) + [ModelRecord(mid, config)];
    assert r.value.doc == Obj(doc.fields["models" := Arr(ms)]);
    assert forall j :: 0 <= j < |ms| ==> ms[j].Obj? && "modelId" in ms[j].fields;
    assert forall j :: 0 <= j < |ms| ==> (ms[j].fields["modelId"] == mid <==> j == |ModelList(doc)|);
  }

  /** A predicate step whose last match is at `i` updates that element
      only. */
  lemma MatchedUpdateIsLocal(ms: seq<Json>, s: Segment, i: nat, rest: Path, f: Transform)
    requires !s.Key? && |rest| > 0 && IsLastMatch(ms, s, i)
    requires UpdateIn(Arr(ms), [s] + rest, f).Success?
    ensures UpdateIn(ms[i], rest, f).Success?
    ensures UpdateIn(Arr(ms), [s] + rest, f).value == Arr(ms[i := UpdateIn(ms[i], rest, f).value])
  {
    FindLastFindsLastMatch(ms, s, i, |ms|);
    assert ([s] + rest)[0] == s && ([s] + rest)[1..] == rest;
  }

  /** In a well-formed document, an update through `model_pred` touches
      only the handle's model, at index `i`. */
  lemma ModelUpdateIsLocal(doc: Json, mid: Json, i: nat, rest: Path, f: Transform)
    requires WellFormed(doc, mid, i) && |rest| > 0
    requires UpdateIn(doc, ModelPath(mid) + rest, f).Success?
    ensures var ms := doc.fields["models"].items;
      UpdateIn(ms[i], rest, f).Success? &&
      UpdateIn(doc, ModelPath(mid) + rest, f).value ==
        Obj(doc.fields["models" := Arr(ms[i := UpdateIn(ms[i], rest, f).value])])
  {
    var path := ModelPath(mid) + rest;
    var ms := doc.fields["models"].items;
    var s := Where("modelId", mid);
    assert path[0] == Key("models") && path[1..] == [s] + rest;
    assert UpdateIn(doc.fields["models"], [s] + rest, f).Success?;
    assert UpdateIn(doc, path, f).value == Obj(doc.fields["models" := UpdateIn(doc.fields["models"], [s] + rest, f).value]);
    assert IsLastMatch(ms, s, i);
    MatchedUpdateIsLocal(ms, s, i, rest, f);
  }

  /** Replacing the handle's model by a record that keeps its id, and whose
      sessions form a list of records with params, keeps the shape. */
  lemma ReplaceModelWellFormed(doc: Json, mid: Json, i: nat, c: Json)
    requires WellFormed(doc, mid, i)
    requires c.Obj? && "modelId" in c.fields && c.fields["modelId"] == mid
    requires "sessions" in c.fields ==> c.fields["sessions"].Arr?
    requires forall s :: s in SessionList(c) ==> HasParams(s)
    ensures WellFormed(Obj(doc.fields["models" := Arr(doc.fields["models"].items[i := c])]), mid, i)
  {
  }

  /** Appending a record with params to the handle's sessions succeeds,
      keeps the shape, and grows the session list by exactly that record. */
  lemma AppendSessionRecord(w: World, i: nat, rec: Json)
    requires WellFormed(w.doc, w.handle.modelId, i) && HasParams(rec)
    ensures var s := Write(w, SessionsPath(w.handle.modelId), Appending(rec));
      s.raised.None? && WellFormed(s.world.doc, w.handle.modelId, i) &&
      SessionList(s.world.doc.fields["models"].items[i]) == SessionList(w.doc.fields["models"].items[i]) + [rec]
  {
    var mid := w.handle.modelId;
    var doc := w.doc;
    var f := Appending(rec);
    var path := SessionsPath(mid);
    var ms := doc.fields["models"].items;
    var m := ms[i];
    assert m in ms;
    assert HasModel(doc, mid);
    assert Test(Where("modelId", mid), m) == Success(true);
    FindLastFindsLastMatch(ms, Where("modelId", mid), i, |ms|);
    var newSessions := AppendOrInit(Get(m.fields, "sessions"), rec).value;
    var e := Obj(m.fields["sessions" := newSessions]);
    assert path[1..] == [Where("modelId", mid), Key("sessions")];
    assert path[1..][1..] == [Key("sessions")];
    assert UpdateIn(m, [Key("sessions")], f) == Success(e);
    assert UpdateIn(doc.fields["models"], path[1..], f) == Success(Arr(ms[i := e]));
    assert UpdateIn(doc, path, f) == Success(Obj(doc.fields["models" := Arr(ms[i := e])]));
    assert newSessions.items == SessionList(m) + [rec];
    ReplaceModelWellFormed(doc, mid, i, e);
  }

  /** Opening a session in a well-formed document appends its record to the
      model's sessions and keeps the document well formed. */
  lemma OpenSessionAppendsRecord(w: World, i: nat, params: Json, ensureUnique: bool, meta: Json)
    requires WellFormed(w.doc, w.handle.modelId, i)
    requires OpenSession(w, params, ensureUnique, meta).raised.None?
    ensures var d := OpenSession(w, params, ensureUnique, meta).world.doc;
      WellFormed(d, w.handle.modelId, i) &&
      SessionList(d.fields["models"].items[i]) ==
        SessionList(w.doc.fields["models"].items[i]) + [SessionRecord(params, meta)]
  {
    var marked := World(w.handle.(sessionParams := params), w.doc);
    AppendSessionRecord(marked, i, SessionRecord(params, meta));
  }

  /** Updating a field other than `params` of the last session with the
      given params keeps every session's params. */
  lemma SessionFieldUpdateKeepsParams(ss: seq<Json>, p: Json, leaf: string, f: Transform)
    requires leaf != "params" && forall s :: s in ss ==> HasParams(s)
    requires UpdateIn(Arr(ss), [Where("params", p), Key(leaf)], f).Success?
    ensures var r := UpdateIn(Arr(ss), [Where("params", p), Key(leaf)], f).value;
      r.Arr? && forall s :: s in r.items ==> HasParams(s)
  {
    var path := [Where("params", p), Key(leaf)];
    var found := FindLast(ss, path[0], |ss|).value;
    if found.Some? {
      var k := found.value;
      assert path[1..] == [Key(leaf)];
      var e := UpdateIn(ss[k], [Key(leaf)], f).value;
      var r := UpdateIn(Arr(ss), path, f).value;
      assert r.items == ss[k := e];
      forall s | s in r.items
        ensures HasParams(s)
      {
        var j :| 0 <= j < |r.items| && r.items[j] == s;
        if j != k {
          assert ss[j] in ss;
        }
      }
    }
  }

  /** A write to a field other than `params` of a session keeps the shape,
      whether it succeeds or raises. */
  lemma SessionFieldWriteWellFormed(w: World, i: nat, p: Json, leaf: string, f: Transform)
    requires WellFormed(w.doc, w.handle.modelId, i) && leaf != "params"
    ensures WellFormed(Write(w, SessionFieldPath(w.handle.modelId, p, leaf), f).world.doc, w.handle.modelId, i)
  {
    var mid := w.handle.modelId;
    var s := Write(w, SessionFieldPath(mid, p, leaf), f);
    if s.raised.None? {
      var ms := w.doc.fields["models"].items;
      var m := ms[i];
      assert m in ms;
      var rest := [Key("sessions"), Where("params", p), Key(leaf)];
      assert SessionFieldPath(mid, p, leaf) == ModelPath(mid) + rest;
      ModelUpdateIsLocal(w.doc, mid, i, rest, f);
      var c := UpdateIn(m, rest, f).value;
      assert rest[1..] == [Where("params", p), Key(leaf)];
      var sv := GetOrDefault(m.fields, "sessions", Empty);
      assert UpdateIn(sv, rest[1..], f).Success?;
      SessionFieldUpdateKeepsParams(sv.items, p, leaf, f);
      ReplaceModelWellFormed(w.doc, mid, i, c);
    }
  }

  /** `add_result` keeps the shape; outside a session it adds its record to
      the handle's session list. */
  lemma AddResultKeepsShape(w: World, i: nat, result: Json, params: Json, meta: Json)
    requires WellFormed(w.doc, w.handle.modelId, i)
    ensures WellFormed(AddResult(w, result, params, meta).world.doc, w.handle.modelId, i)
    ensures !Truthy(w.handle.sessionParams) && Truthy(params) ==>
      SessionList(AddResult(w, result, params, meta).world.doc.fields["models"].items[i]) ==
        SessionList(w.doc.fields["models"].items[i]) + [ResultRecord(params, meta, result)]
  {
    if !Truthy(w.handle.sessionParams) && Truthy(params) {
      AppendSessionRecord(w, i, ResultRecord(params, meta, result));
    } else if Truthy(w.handle.sessionParams) {
      SessionFieldWriteWellFormed(w, i, w.handle.sessionParams, "result", Appending(result));
    }
  }

  /** `add_epoch` keeps the shape. */
  lemma AddEpochKeepsShape(w: World, i: nat, n: Json, e: Json, ts: bool, now: Json)
    requires WellFormed(w.doc, w.handle.modelId, i)
    ensures WellFormed(AddEpoch(w, n, e, ts, now).world.doc, w.handle.modelId, i)
  {
    if Truthy(w.handle.sessionParams) && e.Obj? {
      SessionFieldWriteWellFormed(w, i, w.handle.sessionParams, "result", Appending(EpochRecord(n, e.fields, ts, now)));
    }
  }

  /** `add_meta` keeps the shape. */
  lemma AddMetaKeepsShape(w: World, i: nat, d: Json)
    requires WellFormed(w.doc, w.handle.modelId, i)
    ensures WellFormed(AddMeta(w, d).world.doc, w.handle.modelId, i)
  {
    if Truthy(w.handle.sessionParams) && d.Obj? {
      SessionFieldWriteWellFormed(w, i, w.handle.sessionParams, "meta", Merging(d.fields));
    }
  }

  /** A one-shot `add_result(r, P)` counts as a run with params `P`: a later
      `session(P)` with uniqueness on raises and changes nothing. */
  lemma OneShotThenSessionRejected(w: World, i: nat, result: Json, params: Json, meta: Json, meta2: Json)
    requires WellFormed(w.doc, w.handle.modelId, i)
    requires !Truthy(w.handle.sessionParams) && Truthy(params)
    ensures var w1 := AddResult(w, result, params, meta).world;
      OpenSession(w1, params, true, meta2) == Step(w1, Some(ExistingModelParams))
  {
    AddResultKeepsShape(w, i, result, params, meta);
    var w1 := AddResult(w, result, params, meta).world;
    var rec := ResultRecord(params, meta, result);
    var ss := SessionList(w1.doc.fields["models"].items[i]);
    assert ss[|ss| - 1] == rec;
    assert rec in ss && rec.fields["params"] == params;
    DuplicateOpenChangesNothing(w1, i, params, meta2);
  }

  /** Opening the same params twice with uniqueness on: the second attempt
      raises and changes nothing. */
  lemma SecondOpenRejected(w: World, i: nat, params: Json, meta1: Json, meta2: Json)
    requires WellFormed(w.doc, w.handle.modelId, i)
    requires OpenSession(w, params, true, meta1).raised.None?
    ensures var w1 := EndSession(OpenSession(w, params, true, meta1).world);
      OpenSession(w1, params, true, meta2) == Step(w1, Some(ExistingModelParams))
  {
    OpenSessionAppendsRecord(w, i, params, true, meta1);
    var w1 := EndSession(OpenSession(w, params, true, meta1).world);
    var rec := SessionRecord(params, meta1);
    var ss := SessionList(w1.doc.fields["models"].items[i]);
    assert ss[|ss| - 1] == rec;
    assert rec in ss && rec.fields["params"] == params;
    DuplicateOpenChangesNothing(w1, i, params, meta2);
  }

  /** With `ensure_unique=False` the check is skipped (experiment.py:430-431):
      in a well-formed document, entering always succeeds, whatever sessions
      already carry the same params. */
  lemma UncheckedOpenSucceeds(w: World, i: nat, params: Json, meta: Json)
    requires WellFormed(w.doc, w.handle.modelId, i)
    ensures OpenSession(w, params, false, meta).raised.None?
  {
    var marked := World(w.handle.(sessionParams := params), w.doc);
    AppendSessionRecord(marked, i, SessionRecord(params, meta));
  }

  /** Opening the same params twice with uniqueness off: both entries
      succeed and the model's sessions grow by both records. */
  lemma UncheckedDuplicateOpensAppendTwice(w: World, i: nat, params: Json, meta1: Json, meta2: Json)
    requires WellFormed(w.doc, w.handle.modelId, i)
    ensures var w1 := EndSession(OpenSession(w, params, false, meta1).world);
      var s2 := OpenSession(w1, params, false, meta2);
      OpenSession(w, params, false, meta1).raised.None? && s2.raised.None? &&
      WellFormed(s2.world.doc, w.handle.modelId, i) &&
      SessionList(s2.world.doc.fields["models"].items[i]) ==
        SessionList(w.doc.fields["models"].items[i]) + [SessionRecord(params, meta1), SessionRecord(params, meta2)]
  {
    UncheckedOpenSucceeds(w, i, params, meta1);
    OpenSessionAppendsRecord(w, i, params, false, meta1);
    var w1 := EndSession(OpenSession(w, params, false, meta1).world);
    UncheckedOpenSucceeds(w1, i, params, meta2);
    OpenSessionAppendsRecord(w1, i, params, false, meta2);
  }

  /** `add_result(result, params)` outside a session appends one
      self-contained record, with the result as it is (no list around it),
      to the model's sessions (experiment.py:453-454, 379-383). */
  lemma OneShotResultAppendsRecord(w: World, result: Json, params: Json, meta: Json)
    requires HasModel(w.doc, w.handle.modelId)
    requires !Truthy(w.handle.sessionParams) && Truthy(params)
    requires AddResult(w, result, params, meta).raised.None?
    ensures Read(w.doc, SessionsPath(w.handle.modelId)).Success?
    ensures !Read(w.doc, SessionsPath(w.handle.modelId)).value.NoMatch?
    ensures var prev := Current(Read(w.doc, SessionsPath(w.handle.modelId)).value);
      Read(AddResult(w, result, params, meta).world.doc, SessionsPath(w.handle.modelId)) ==
        Success(At(Arr((if prev.Arr? then prev.items else []) + [ResultRecord(params, meta, result)])))
  {
    var mid := w.handle.modelId;
    SessionPathsShape(mid, params, "result");
    var rec := ResultRecord(params, meta, result);
    assert ExtendIn(w.doc, SessionsPath(mid), rec) == UpdateIn(w.doc, SessionsPath(mid), Appending(rec));
    ExtendInAppendsAtPath(w.doc, SessionsPath(mid), rec);
    HasModelReachesSessions(w.doc, mid);
  }

  /** `add_meta(d)` inside a session merges `d` over the session's meta,
      the new keys winning (experiment.py:436-448). */
  lemma AddMetaMerges(w: World, d: Json, meta: map<string, Json>)
    requires Truthy(w.handle.sessionParams) && d.Obj?
    requires Read(w.doc, SessionFieldPath(w.handle.modelId, w.handle.sessionParams, "meta")) == Success(At(Obj(meta)))
    ensures AddMeta(w, d).raised.None?
    ensures Read(AddMeta(w, d).world.doc, SessionFieldPath(w.handle.modelId, w.handle.sessionParams, "meta")) ==
      Success(At(Obj(Merge(meta, d.fields))))
  {
    var mid, p := w.handle.modelId, w.handle.sessionParams;
    var path := SessionFieldPath(mid, p, "meta");
    SessionPathsShape(mid, p, "meta");
    assert path == ModelPath(mid) + [Key("sessions"), Where("params", p), Key("meta")];
    ReadThroughModelHasModel(w.doc, mid, [Key("sessions"), Where("params", p), Key("meta")]);
    UpdateSucceedsWhereReadDoes(w.doc, path, Merging(d.fields));
    AssignInMergesAtPath(w.doc, path, d.fields);
  }
}

=== FILE: wrappers.dfy ===
/** Failure-compatible wrappers shared by every module of the model. */
module Wrappers {

  /** An optional value; `None` stands for Python's "nothing there". */
  datatype Option<+T> = None | Some(value: T)

  /** The outcome of a call that may raise: `Failure(e)` is a raised exception. */
  datatype Result<+T, +E> = Success(value: T) | Failure(error: E) {

    predicate IsFailure() {
      Failure?
    }

    function PropagateFailure<U>(): Result<U, E>
      requires Failure?
    {
      Failure(error)
    }

    function Extract(): T
      requires Success?
    {
      value
    }
  }
}
